=== FILE: README.md ===
# libstorage-ng: holders, LUKS and the Btrfs subvolume tree

This project models three parts of libstorage-ng, the storage management
library, and proves properties of them in Dafny.

- **Holders** (`holder.dfy`, on top of the graph arena in `devicegraph.dfy`).
  A holder is a directed (source, target) edge of the device graph. Its
  device graph is a class holding:
  - the devices, as a map from storage id (sid) to attributes;
  - the edges, as a set;
  - the next free sid.

  Adding a holder checks that both ends belong to the graph it is added to.
  It also checks that no edge joins that pair yet. Only then does it insert
  the edge and record the graph and the edge in the holder. `load` rebuilds
  a holder from the sids stored in a node.
- **LUKS** (`luks.dfy`, with the crypttab registry in `crypttab.dfy` and
  decimal rendering in `strings.dfy`). This covers:
  - the size check against the parent block device;
  - the size and resize arithmetic around the 2 MiB header;
  - the mount-by name;
  - the process-wide `cr-auto-N` name counter;
  - the interactive activation retry loop. The password callback and the
    cryptsetup exit codes are an input sequence of attempts.
  - activation of every inactive LUKS device, and deactivation of every
    CRYPT device;
  - adding, renaming and removing the /etc/crypttab entry.
- **Btrfs** (`btrfs.dfy`). This covers:
  - the check for exactly one top-level subvolume;
  - the lookups of the top-level subvolume, the default subvolume and a
    subvolume by path;
  - the fstab and mount-entry filters;
  - both probe passes. Pass 2a builds the subvolume tree from the output of
    `btrfs subvolume list`, whose children may come before their parents.
    Pass 2b visits the subvolumes in ascending id order.
  - the used-features mask;
  - the snapper configuration made on creation.

Exceptions are values: `Outcome` stands for a `void` function that may
throw, and `Result` for a function that returns or throws (`results.dfy`).
External commands, the user callback, blkid, udevadm, dmsetup and
`btrfs subvolume list` are inputs: sequences of exit codes, answers and
entries.

## Model

| member | source | states |
|---|---|---|
| `Holders.NewHolder` | storage/Holders/Holder.cc:12-17 | A null impl is refused with runtime_error "impl is nullptr"; otherwise the result is a fresh holder over that impl. |
| `Holders.AddOutcome` | storage/Holders/Holder.cc:82-96 | Insertion passes iff both devices belong to the graph and the (source, target) pair is not joined yet. Otherwise it names the first failing check, in source order: "wrong graph in source", "wrong graph in target", "holder already exists". |
| `Holders.Holder.AddToDeviceGraph` | storage/Holders/Holder.cc:78-99 | The outcome is AddOutcome of the old edge set. On failure, neither the graph nor the holder changes. On success, the edge set gains exactly the new edge, and the holder records the graph and that edge. The graph stays valid (no dangling edge). |
| `Holders.Holder.Create` | storage/Holders/Holder.cc:25-29 | Same contract as AddToDeviceGraph. |
| `Holders.Holder.Load` | storage/Holders/Holder.cc:32-47 | Fails with "no source-sid" or "no target-sid" when the node lacks that value. Fails with "device not found" when a sid names no device. Otherwise it behaves exactly as AddToDeviceGraph on the two devices found. |
| `Holders.Holder.SourceSid` | storage/Holders/Holder.cc:64-68 | The source sid of an attached holder names a device of its graph. |
| `Holders.Holder.TargetSid` | storage/Holders/Holder.cc:71-75 | The target sid of an attached holder names a device of its graph. |
| `Holders.AddTwice` | storage/Holders/Holder.cc:91-96 | Adding the same pair twice: the first insertion passes, the second is refused with "holder already exists", and the edge set gains the edge once. |
| `Devicegraphs.Devicegraph.FindDevice` | storage/Holders/Holder.cc:43-44 | A device is found iff its sid is in the graph, and the handle found belongs to this graph. |
| `Devicegraphs.Devicegraph.AddDevice` | storage/Filesystems/BtrfsImpl.cc:264 | A new device gets the next sid, one never used in the graph. The counter advances, the edges are unchanged and the graph stays valid. |
| `Crypttab.FindBlockDevice` | storage/Devices/LuksImpl.cc:489-490 | Gives the index of the first entry for the block device, or None exactly when no entry has it. |
| `Crypttab.RenameEntry` | storage/Devices/LuksImpl.cc:489-497 | Without an entry for the old name, the registry is unchanged. Otherwise only the found entry's block device changes, to the new name. Crypt devices and options are kept everywhere. |
| `Crypttab.RemoveEntry` | storage/Devices/LuksImpl.cc:508-515 | Without an entry, the registry is unchanged. Otherwise exactly the found entry is removed: one entry fewer, and the same multiset apart from it. |
| `Crypttab.FindBlockDeviceAppend` | storage/Devices/LuksImpl.cc:474 | After an append, a lookup of the new entry's block device finds an older entry if there is one, else the appended one. |
| `Crypttab.RemoveUndoesAdd` | storage/Devices/LuksImpl.cc:464-516 | Removing the block device of an entry just added restores the registry, when no older entry had that block device. For do_add followed by do_remove this holds only when the mount-by name that do_add stores is the block device name that do_remove looks up; the source marks this with a TODO. |
| `Crypttab.EtcCrypttab.constructor` | storage/Devices/LuksImpl.cc:467 | A registry starts with the given entries, all written. |
| `Crypttab.EtcCrypttab.Add` | storage/Devices/LuksImpl.cc:474 | Appends one entry in memory; the written file is unchanged. |
| `Crypttab.EtcCrypttab.SetBlockDevice` | storage/Devices/LuksImpl.cc:494 | Changes one entry's block device in memory. |
| `Crypttab.EtcCrypttab.Remove` | storage/Devices/LuksImpl.cc:512 | Drops one entry in memory. |
| `Crypttab.EtcCrypttab.Write` | storage/Devices/LuksImpl.cc:476 | The written file becomes the in-memory entries. |
| `Strings.DigitChar` | storage/Devices/LuksImpl.cc:111 | A digit below ten is rendered as a character '0'..'9'. |
| `Strings.NatToString` | storage/Devices/LuksImpl.cc:111 | to_string of a counter is non-empty, all digits, and one character long exactly for numbers below ten. |
| `Strings.IntToString` | storage/Filesystems/BtrfsImpl.cc:202 | The rendering of a subvolume id is never empty. |
| `Strings.NatToStringInjective` | storage/Devices/LuksImpl.cc:111 | Different numbers render differently, which is what makes cr-auto names unique. |
| `Strings.CommonPrefixCancels` | storage/Devices/LuksImpl.cc:111 | Equal names with the same prefix have equal remainders. |
| `Luks.Check` | storage/Devices/LuksImpl.cc:61-71 | An inherited failure propagates. Without exactly one BlkDevice parent, the check raises "Luks has no BlkDevice parent". Otherwise it raises "Luks bigger than parent BlkDevice". It passes iff the parent holds the size plus the 2 MiB header. |
| `Luks.CheckAsWritten` | storage/Devices/LuksImpl.cc:69-70 | The check with the sum wrapping at 2^64 as unsigned long long. It agrees with Check whenever the sum does not wrap. |
| `Luks.CheckAsWrittenAcceptsOversizedLuks` | storage/Devices/LuksImpl.cc:69-70 | A Luks of 2^64 - 1 MiB bytes on a 1 MiB parent passes the wrapping check but fails the intended one. |
| `Luks.SaturatingSub` | storage/Devices/LuksImpl.cc:320-323 | Subtraction that never underflows: exact when a >= b, zero otherwise, never above a. |
| `Luks.CalculateRegion` | storage/Devices/LuksImpl.cc:310-326 | The Luks size never exceeds the parent's. It is the parent size minus the header when the parent is larger, and 0 otherwise. |
| `Luks.CalculatedRegionPassesCheck` | storage/Devices/LuksImpl.cc:310-326 | The calculated size passes the check exactly when the parent can hold the header. |
| `Luks.CalculatedRegionIsLargestValid` | storage/Devices/LuksImpl.cc:310-326 | Every size up to the calculated one passes the check and none above it does. |
| `Luks.Shift` | storage/Devices/LuksImpl.cc:366 | Shifting keeps resize_ok and never raises either bound. |
| `Luks.DetectResizeInfo` | storage/Devices/LuksImpl.cc:361-369 | The inherited block-device range is shifted down by the header: each bound becomes the Luks size calculate_region gives for that size, and an ordered range stays ordered. |
| `Luks.LuksUsedFeatures` | storage/Devices/LuksImpl.cc:372-376 | UF_LUKS is always set, and every other bit is the encryption device's. |
| `Luks.EqualIsEquivalence` | storage/Devices/LuksImpl.cc:329-338 | Two Luks are equal when they are equal as encryption devices and their UUIDs agree. That refinement keeps an equivalence: if encryption equality is reflexive, symmetric and transitive, so is Luks equality. |
| `Luks.GetMountByName` | storage/Devices/LuksImpl.cc:74-101 | Mount by UUID with a known UUID gives "UUID=" followed by the UUID. Every other case falls back to the encryption device's name. |
| `Luks.CrAutoNameInjective` | storage/Devices/LuksImpl.cc:111 | Different counter values give different cr-auto names. |
| `Luks.CrAutoNamer.constructor` | storage/Devices/LuksImpl.cc:107 | The counter starts at 1. |
| `Luks.CrAutoNamer.NextFreeCrAutoName` | storage/Devices/LuksImpl.cc:104-116 | Returns cr-auto-N for the first N at or above the counter that is not an existing dm name. The counter moves to N + 1, so it strictly increases. |
| `Luks.TakenRunBound` | storage/Devices/LuksImpl.cc:109-115 | A run of taken names is no longer than the set of dm names, so the search ends. |
| `Luks.AllocateTwice` | storage/Devices/LuksImpl.cc:104-116 | Two allocations from one counter never return the same name, whatever names exist. |
| `Luks.FirstStop` | storage/Devices/LuksImpl.cc:126-161 | Gives the attempt that ends the retry loop: the first cancel or non-2 exit code. |
| `Luks.FirstStopIs` | storage/Devices/LuksImpl.cc:151-155 | An attempt that stops, after attempts that did not, is the one FirstStop names. |
| `Luks.ActivationResult` | storage/Devices/LuksImpl.cc:128-160 | The only failure is "activate Luks failed". |
| `Luks.ActivationResultCharacterised` | storage/Devices/LuksImpl.cc:119-162 | Activation returns false iff the user cancels after wrong passwords only. It returns true iff a password is accepted (exit 0) after wrong passwords only. It raises iff cryptsetup exits with neither 0 nor 2 after wrong passwords only. |
| `Luks.ActivateLuks` | storage/Devices/LuksImpl.cc:119-162 | The result is ActivationResult. The callback is asked for attempts 1, 2, ... up to the stopping one. There is one luksOpen per password given. The dm name is allocated once, before the first luksOpen, as a fresh cr-auto name. Every retry reuses it with the password of that attempt, and a cancel on attempt 1 leaves the counter alone. |
| `Luks.ActivateLuksesCharacterised` | storage/Devices/LuksImpl.cc:165-206 | Activating all devices raises iff some inactive LUKS device's activation raises. Otherwise it returns true iff some activation returned true. Non-LUKS devices and devices used by a dm table play no part. |
| `Luks.ActivateLuksesErrPersists` | storage/Devices/LuksImpl.cc:197-198 | A raise stops the loop: the result for all devices is the raise from the prefix. |
| `Luks.TrackedExtend` | storage/Devices/LuksImpl.cc:197-198 | The runs for one more inactive device, under one freshly allocated name, keep the bookkeeping invariant. |
| `Luks.TrackedGrow` | storage/Devices/LuksImpl.cc:176-185 | Skipping a device, or advancing the counter, keeps the bookkeeping invariant. |
| `Luks.TrackedDistinct` | storage/Devices/LuksImpl.cc:174-200 | Every luksOpen run uses a dm name that was free, opens an inactive LUKS device, and runs for different devices use different dm names. |
| `Luks.ActivateInactive` | storage/Devices/LuksImpl.cc:187-199 | Activating one inactive device gives its ActivationResult, and the bookkeeping invariant covers its runs. |
| `Luks.ActivateLukses` | storage/Devices/LuksImpl.cc:165-206 | The result is ActivateLuksesResult. udev is settled iff the result is true. The counter only grows, and all luksOpen runs satisfy the bookkeeping invariant. |
| `Luks.CryptDevices` | storage/Devices/LuksImpl.cc:217-220 | The names returned are exactly the CRYPT devices' names. |
| `Luks.DeactivateLukses` | storage/Devices/LuksImpl.cc:209-231 | Every CRYPT device is closed, and the result is true iff every close exited with 0. |
| `Luks.DoAddToEtcCrypttab` | storage/Devices/LuksImpl.cc:464-477 | Exactly one entry is appended, and the file is written. The new entry names the dm table as crypt device, the mount-by name as block device, and carries the crypt options. |
| `Luks.DoRenameInEtcCrypttab` | storage/Devices/LuksImpl.cc:480-498 | Without an entry for the old block device, nothing changes. Otherwise that entry points at the mount-by name and the file is written. |
| `Luks.DoRemoveFromEtcCrypttab` | storage/Devices/LuksImpl.cc:501-516 | Without an entry for the block device, nothing changes. Otherwise it is removed and the file is written. |
| `Btrfs.Filter` | storage/Filesystems/BtrfsImpl.cc:163-171 | A filter loop keeps exactly the elements that pass, and never grows. |
| `Btrfs.FilterAppend` | storage/Filesystems/BtrfsImpl.cc:163-171 | The filter keeps order: filtering a concatenation concatenates the filtered parts. |
| `Btrfs.FirstWhere` | storage/Filesystems/BtrfsImpl.cc:108-114 | A first-match loop returns the first matching index, or None exactly when nothing matches. |
| `Btrfs.BtrfsSubvolumes` | storage/Filesystems/BtrfsImpl.cc:138-157 | Exactly the subvolumes among the descendants. |
| `Btrfs.Check` | storage/Filesystems/BtrfsImpl.cc:73-80 | An inherited failure propagates. Otherwise it passes iff exactly one child is a subvolume, and raises "top-level subvolume missing" if not. |
| `Btrfs.GetTopLevelBtrfsSubvolume` | storage/Filesystems/BtrfsImpl.cc:83-102 | Found iff exactly one child is a subvolume, and it is that unique child. Otherwise it raises "no top-level subvolume found". |
| `Btrfs.CheckPassesIffTopLevelFound` | storage/Filesystems/BtrfsImpl.cc:73-102 | The check passes exactly when the top-level subvolume can be found. |
| `Btrfs.GetDefaultBtrfsSubvolume` | storage/Filesystems/BtrfsImpl.cc:105-128 | Returns the first descendant flagged default. It raises "no default btrfs subvolume found" exactly when none is flagged. |
| `Btrfs.FindBtrfsSubvolumeByPath` | storage/Filesystems/BtrfsImpl.cc:210-233 | Returns the first subvolume with the path. It raises BtrfsSubvolumeNotFoundByPath(path) exactly when none has it. |
| `Btrfs.FindEtcFstabEntries` | storage/Filesystems/BtrfsImpl.cc:160-187 | Keeps exactly the matched entries without a subvol option. |
| `Btrfs.FindEtcFstabEntriesAppend` | storage/Filesystems/BtrfsImpl.cc:160-172 | The entries kept stay in their original order. |
| `Btrfs.FindProcMountsEntries` | storage/Filesystems/BtrfsImpl.cc:190-207 | Raises exactly when there is no default subvolume. Otherwise it keeps an entry iff it has no subvol option or selects the default's subvolid. |
| `Btrfs.InsertByIdElements` | storage/Filesystems/BtrfsImpl.cc:308 | Insertion adds exactly one element. |
| `Btrfs.InsertByIdSorted` | storage/Filesystems/BtrfsImpl.cc:308 | Insertion into an id-sorted sequence keeps it sorted. |
| `Btrfs.SortById` | storage/Filesystems/BtrfsImpl.cc:308 | The sort by id is sorted and a permutation of its input. |
| `Btrfs.ProbePass2bOrder` | storage/Filesystems/BtrfsImpl.cc:307-308 | Pass 2b visits exactly the subvolumes below the filesystem, each as often as it occurs, in ascending id order. |
| `Btrfs.ProbePass2b` | storage/Filesystems/BtrfsImpl.cc:292-313 | Without a unique top-level subvolume, pass 2b raises "no top-level subvolume found" and visits nothing. Otherwise the visit order is sorted by id and is a permutation of the subvolumes below the filesystem. |
| `Btrfs.ListIds` | storage/Filesystems/BtrfsImpl.cc:262-268 | Exactly the listed ids. |
| `Btrfs.SubvolumeEdges` | storage/Filesystems/BtrfsImpl.cc:270-275 | Exactly one parent-to-child edge per listed entry. |
| `Btrfs.SubvolumeEdgesIgnoreOrder` | storage/Filesystems/BtrfsImpl.cc:259-275 | For a fixed id-to-sid map, the edges do not depend on the order of the list. |
| `Btrfs.SubvolumeEdgesOneParent` | storage/Filesystems/BtrfsImpl.cc:270-275 | With distinct sids, every edge into a listed subvolume comes from its parent. |
| `Btrfs.StageEventsSnoc` | storage/Filesystems/BtrfsImpl.cc:262-281 | A stage over one more entry adds that entry's event at the end. |
| `Btrfs.StageEventsAt` | storage/Filesystems/BtrfsImpl.cc:262-281 | A stage has one event per entry, in list order. |
| `Btrfs.ProbeTraceOrder` | storage/Filesystems/BtrfsImpl.cc:262-288 | In pass 2a, all creations come before any edge, and all edges before any refinement. The default is set last, once, exactly when a subvolume is listed. |
| `Btrfs.CreatedAt` | storage/Filesystems/BtrfsImpl.cc:262-268 | After creation, old devices keep their attributes, and sid base + i holds the subvolume for the i-th entry. |
| `Btrfs.SubvolumeSidsAt` | storage/Filesystems/BtrfsImpl.cc:262-268 | With distinct ids, the id map knows exactly the listed ids, the i-th under sid base + i. |
| `Btrfs.NewSubvolumesSnoc` | storage/Filesystems/BtrfsImpl.cc:264 | Creating the next subvolume extends the devices by exactly that one. |
| `Btrfs.SubvolumeSidsSnoc` | storage/Filesystems/BtrfsImpl.cc:267 | Recording the next id extends the id map by exactly that one. |
| `Btrfs.SetDefaultBtrfsSubvolume` | storage/Filesystems/BtrfsImpl.cc:131-135 | Only that device's attributes change, to the flagged ones. |
| `Btrfs.CreateSubvolumes` | storage/Filesystems/BtrfsImpl.cc:262-268 | The devices gain exactly the new subvolumes under consecutive fresh sids. Each id is recorded under its sid, and the stage's events come in list order. |
| `Btrfs.AddSubvolumeEdges` | storage/Filesystems/BtrfsImpl.cc:270-275 | No insertion is refused, and the edges gain exactly the parent-to-child edges of the list. |
| `Btrfs.SubvolumeEdgesSnoc` | storage/Filesystems/BtrfsImpl.cc:274 | Attaching the next entry adds exactly its edge. |
| `Btrfs.NotYetAttached` | storage/Filesystems/BtrfsImpl.cc:274 | The edge for the next entry is not there yet, so holder creation cannot refuse it. |
| `Btrfs.RefineSubvolumes` | storage/Filesystems/BtrfsImpl.cc:277-281 | Every entry is refined, in list order. |
| `Btrfs.SubsetCount` | storage/Filesystems/BtrfsImpl.cc:283 | A subset is no larger, which is used to count the known subvolumes. |
| `Btrfs.MoreThanTopLevel` | storage/Filesystems/BtrfsImpl.cc:283 | More than one subvolume is known iff any subvolume is listed. |
| `Btrfs.TreeSids` | storage/Filesystems/BtrfsImpl.cc:243-268 | The id map knows the top level and every listed id. Every parent and the default resolve to the top level's sid or a new one. |
| `Btrfs.DefaultCreated` | storage/Filesystems/BtrfsImpl.cc:287 | With a subvolume listed, the default id maps to a subvolume device with that id. |
| `Btrfs.OtherSid` | storage/Filesystems/BtrfsImpl.cc:287 | A listed subvolume other than the default does not share the default's sid. |
| `Btrfs.ProbedDefaultIsFlagged` | storage/Filesystems/BtrfsImpl.cc:283-288 | After pass 2a with a subvolume listed, the device under the default id's sid is a subvolume with that id, and it is flagged default. |
| `Btrfs.ProbedOthersUnflagged` | storage/Filesystems/BtrfsImpl.cc:283-288 | After pass 2a, every new subvolume other than the default keeps the id and path it was created with, and is not flagged default. |
| `Btrfs.DefaultKnown` | storage/Filesystems/BtrfsImpl.cc:283-287 | More than the top level is known iff a subvolume is listed, and then the default is a device. |
| `Btrfs.CreateAndAttach` | storage/Filesystems/BtrfsImpl.cc:262-275 | After the first two loops, the devices are the old ones plus the new subvolumes. The edges are the old ones plus one edge per entry, and the events are all creations, then all attachments. |
| `Btrfs.FlagDefault` | storage/Filesystems/BtrfsImpl.cc:283-288 | The default is flagged, and the event recorded, exactly when more than the top level is known. |
| `Btrfs.BuildSubvolumeTree` | storage/Filesystems/BtrfsImpl.cc:243-288 | The devices become the old ones plus the new subvolumes, with the default flagged when a subvolume is listed. The edges become the old ones plus every parent-to-child edge, and the trace is ProbeTrace. |
| `Btrfs.ProbePass2a` | storage/Filesystems/BtrfsImpl.cc:236-289 | Without a unique top-level subvolume, pass 2a raises and nothing changes. Otherwise the sid counter advances by one per entry. The id map holds the top level under its own sid and the i-th listed id under the i-th new sid. Every listed subvolume, wherever it stands in the list, gets an edge from its parent's sid to its own. The devices, edges and trace are as BuildSubvolumeTree states. |
| `Btrfs.BtrfsFilesystem.constructor` | storage/Filesystems/BtrfsImpl.cc:60-61 | A new Btrfs does not configure snapper and has no snapper config. |
| `Btrfs.BtrfsFilesystem.UsedFeatures` | storage/Filesystems/BtrfsImpl.cc:330-339 | UF_BTRFS is always set. UF_SNAPSHOTS is set when snapper is to be configured, and iff so when not inherited. No bit other than these two is added. |
| `Btrfs.BtrfsFilesystem.UsedFeaturesKeepsInherited` | storage/Filesystems/BtrfsImpl.cc:330-339 | Every inherited bit is kept, UF_SNAPSHOTS included, whether or not snapper is to be configured. |
| `Btrfs.BtrfsFilesystem.DoCreate` | storage/Filesystems/BtrfsImpl.cc:342-369 | A failing mkfs raises "create btrfs failed" and changes nothing. Otherwise a snapper config is made exactly when one is wanted and none exists yet, so at most once. |

## Left out

- External commands are inputs. Only their exit codes enter the model:
  - cryptsetup luksOpen, close and the others;
  - mkfs.btrfs;
  - `udevadm settle` (a boolean result says whether it would run);
  - the user's activation callback.

  Command lines, quoting and stdin plumbing are not modelled, except the key
  fed to luksOpen.
- SystemInfo, Blkid, dmsetup, udevadm, /proc/mounts and /etc/fstab parsing
  are given sequences, maps and sets:
  - `BlkidEntry` carries the device number udevadm reports;
  - `dmUsed` holds the device numbers dmsetup table uses;
  - `dmNames` holds the names dmsetup info lists.
- The device lookups of the Btrfs code are given sequences: the children
  and the descendants in graph order. So are the fstab entries that match
  the device names.
- `EnsureMounted`, `Mockup` playback mode and `wait_for_devices` are mount
  and timing side effects and are not modelled.
- Logging, `save`, `print` and `log_diff` are not modelled.
- DeviceGraph internals, boost edge descriptors and `shared_ptr` ownership
  are abstracted: a holder records its graph and its (source, target) edge.
- `findDevice` is not part of this model. When a sid names no device, it is
  modelled as failing with "device not found".
- Several headers are not part of this model, so these are assumptions:
  - the LUKS header size `metadata_size` is assumed to be 2 MiB;
  - the UF_BTRFS, UF_LUKS and UF_SNAPSHOTS bit positions;
  - MountOpts: `has_subvol()` is taken as "an option starting with
    `subvol=`" and `has_subvol(id)` as "the option `subvolid=<id>`";
  - `ResizeInfo::shift` is taken as a subtraction from both bounds, clamped
    at zero;
  - `has_single_parent_of_type<const BlkDevice>()` is taken as "exactly one
    parent, and it is a BlkDevice";
  - `BlkDevice::Impl::detect_resize_info()`, called on the Luks, is taken
    as the resize range of its parent block device;
  - the device graph's edge container refuses parallel edges, so adding a
    second holder between the same pair raises "holder already exists"
    (`Holders.AddOutcome`, `Btrfs.NotYetAttached` and
    `Btrfs.AddSubvolumeEdges` rely on this);
  - EtcCrypttab: `find_block_device` is taken as returning the first entry
    for that block device, `add` as appending at the end, and `remove` as
    removing just that entry.
- `Btrfs.BuildSubvolumeTree`: the list is assumed well formed, as
  `btrfs subvolume list` reports it. Ids must be distinct and differ from
  the top level's. Every parent id must be the top level's or a listed id,
  and so must the default id. The source does this in each excluded case:
  - an unknown parent id or default id reads a null map entry and
    dereferences it (BtrfsImpl.cc:273 and 287);
  - a repeated id overwrites the map entry (BtrfsImpl.cc:267). With the
    same parent twice, the second attachment raises "holder already
    exists". With different parents, the later subvolume gets both parents
    and the earlier one none;
  - a listed id equal to the top level's replaces the top level in the map.
    Every entry whose parent is that id then hangs under the new subvolume,
    so that entry itself, if its parent is the top level, becomes a
    self-edge.
- `Btrfs.ProbePass2a`: it requires the same well-formedness as
  BuildSubvolumeTree. The refinement of each subvolume
  (`BtrfsSubvolume::Impl::probe_pass_2a`) is only recorded as a trace event.
  BtrfsSubvolume's code is not part of this model.
- Both probe passes first call the pass a Btrfs inherits from a block
  filesystem (`BlkFilesystem::Impl::probe_pass_2a` and `probe_pass_2b`).
  Those calls are left out: the code of BlkFilesystem is not part of this
  model, and neither probe pass records anything for them.
- `Btrfs.ProbePass2b`: the probe of each subvolume in pass 2b is left out;
  only the visit order is modelled. The order among subvolumes with equal
  ids (std::sort is not stable) is not fixed by the contract.
- `Btrfs.SetDefaultBtrfsSubvolume` only sets the subvolume's flag. What
  BtrfsSubvolume does besides that is not part of this model.
- `Btrfs.BtrfsFilesystem.DoCreate`: probing the UUID after mkfs and the
  snapper hooks (pre_mount, post_mount, post_add_to_etc_fstab) are left out.
- `Luks.ActivateLuks` requires that the attempts eventually stop: a cancel,
  or an exit code other than 2. The source would retry forever on endless
  wrong passwords.
- `Luks.ActivateLukses` requires that the attempts stop for every inactive
  LUKS device, for the same reason.
- `Luks.CrAutoNamer.NextFreeCrAutoName`: the counter is an `int` in the
  source. Its overflow after 2^31 allocations is not modelled; the counter
  is unbounded.
- `Luks.Equal` takes the encryption-level equality as a parameter. The
  Encryption code is not part of this model.
- `Luks.GetMountByName` takes the encryption device's fallback name as a
  parameter.
- Formatting, resizing and deleting a Luks (do_create, do_resize,
  do_delete, do_activate, do_deactivate) are command invocations and are
  left out.
- The sysfs size read of probe_lukses is left out.

## Findings

| source | as written | input that shows it | evidently intended | confidence | as-written member | corrected member |
|---|---|---|---|---|---|---|
| storage/Devices/LuksImpl.cc:69-70 | `get_size() + metadata_size` is an unsigned long long sum, which wraps modulo 2^64 before the comparison | Luks size 2^64 - 1 MiB on a BlkDevice parent of 1 MiB: the sum wraps to 1 MiB, so the check passes | the Luks plus its header must fit in the parent, so this input raises "Luks bigger than parent BlkDevice" | low; not executed | `Luks.CheckAsWrittenAcceptsOversizedLuks` | `Luks.Check` |

=== FILE: btrfs.dfy ===
/**
 * Btrfs filesystems and their subvolume tree: the lookups over the subvolumes
 * below a Btrfs, the ordering of the second probe pass, the construction of
 * the tree from the list of subvolumes the filesystem reports, the used
 * features and the snapper configuration made on creation.
 */
module Btrfs {
  import opened Results
  import opened Strings
  import opened Devicegraphs
  import opened Holders
  import opened UsedFeatures

  // ------------------------------------------------------ sequence helpers

  /** The elements of s that satisfy keep, in their order in s. */
  function Filter<T(!new)>(s: seq<T>, keep: T -> bool): (r: seq<T>)
    ensures |r| <= |s|
    ensures forall x :: x in r <==> x in s && keep(x)
  {
    if s == [] then [] else (if keep(s[0]) then [s[0]] else []) + Filter(s[1..], keep)
  }

  /** Filtering a concatenation filters each part and keeps the parts in order. */
  lemma {:induction false} FilterAppend<T(!new)>(a: seq<T>, b: seq<T>, keep: T -> bool)
    ensures Filter(a + b, keep) == Filter(a, keep) + Filter(b, keep)
  {
    if a != [] {
      assert (a + b)[0] == a[0] && (a + b)[1..] == a[1..] + b;
      FilterAppend(a[1..], b, keep);
    } else {
      assert a + b == b;
    }
  }

  /** The index of the first element of s that satisfies p. */
  function FirstWhere<T(!new)>(s: seq<T>, p: T -> bool): (r: Option<nat>)
    ensures r.Some? ==> r.value < |s| && p(s[r.value]) && forall j | 0 <= j < r.value :: !p(s[j])
    ensures r.None? <==> forall j | 0 <= j < |s| :: !p(s[j])
  {
    if s == [] then None
    else if p(s[0]) then Some(0)
    else match FirstWhere(s[1..], p)
      case None => None
      case Some(i) => Some(i + 1)
  }

  // -------------------------------------------------------------- subvolumes

  predicate IsSubvolume(v: Vertex) {
    v.data.BtrfsSubvolume?
  }

  predicate IsDefaultSubvolume(v: Vertex) {
    v.data.BtrfsSubvolume? && v.data.isDefault
  }

  predicate HasPath(v: Vertex, path: string) {
    v.data.BtrfsSubvolume? && v.data.path == path
  }

  /** The subvolumes among the given vertices, in their order. */
  function BtrfsSubvolumes(vs: seq<Vertex>): (r: seq<Vertex>)
    ensures forall v :: v in r <==> v in vs && IsSubvolume(v)
  {
    Filter(vs, IsSubvolume)
  }

  /**
   * The validation of a Btrfs whose children are `children`, after the
   * inherited filesystem validation gave `inherited`: the filesystem must have
   * exactly one subvolume child, its top-level subvolume.
   */
  function Check(inherited: Outcome, children: seq<Vertex>): (r: Outcome)
    ensures inherited.Fail? ==> r == inherited
    ensures inherited.Pass? ==> (r.Pass? <==> |BtrfsSubvolumes(children)| == 1)
    ensures r.Fail? && inherited.Pass? ==> r.error == Exception("top-level subvolume missing")
  {
    if inherited.Fail? then inherited
    else if |BtrfsSubvolumes(children)| != 1 then Fail(Exception("top-level subvolume missing"))
    else Pass
  }

  /** The top-level subvolume: the only subvolume child of the filesystem. */
  function GetTopLevelBtrfsSubvolume(children: seq<Vertex>): (r: Result<Vertex>)
    ensures r.Ok? <==> |BtrfsSubvolumes(children)| == 1
    ensures r.Ok? ==> r.value in children && IsSubvolume(r.value)
    ensures r.Ok? ==> forall v | v in children && IsSubvolume(v) :: v == r.value
    ensures r.Err? ==> r.error == Exception("no top-level subvolume found")
  {
    var subvolumes := BtrfsSubvolumes(children);
    if |subvolumes| != 1 then Err(Exception("no top-level subvolume found"))
    else
      assert subvolumes[0] in subvolumes;
      Ok(subvolumes[0])
  }

  /** A filesystem passes its own check exactly when its top-level subvolume can be found. */
  lemma CheckPassesIffTopLevelFound(children: seq<Vertex>)
    ensures Check(Pass, children).Pass? <==> GetTopLevelBtrfsSubvolume(children).Ok?
  {
  }

  /**
   * The default subvolume: the first subvolume below the filesystem, in
   * descendant order, that is flagged as default. A vertex that is flagged is
   * a subvolume, so the first flagged descendant is the first flagged subvolume.
   */
  function GetDefaultBtrfsSubvolume(descendants: seq<Vertex>): (r: Result<Vertex>)
    ensures r.Ok? ==> exists i | 0 <= i < |descendants| ::
              && descendants[i] == r.value && IsDefaultSubvolume(r.value)
              && forall j | 0 <= j < i :: !IsDefaultSubvolume(descendants[j])
    ensures r.Err? <==> forall v | v in descendants :: !IsDefaultSubvolume(v)
    ensures r.Err? ==> r.error == Exception("no default btrfs subvolume found")
  {
    match FirstWhere(descendants, IsDefaultSubvolume)
    case None => Err(Exception("no default btrfs subvolume found"))
    case Some(i) => Ok(descendants[i])
  }

  /**
   * The first subvolume below the filesystem, in descendant order, with the
   * given path; only subvolumes have a path.
   */
  function FindBtrfsSubvolumeByPath(descendants: seq<Vertex>, path: string): (r: Result<Vertex>)
    ensures r.Ok? ==> exists i | 0 <= i < |descendants| ::
              && descendants[i] == r.value && HasPath(r.value, path)
              && forall j | 0 <= j < i :: !HasPath(descendants[j], path)
    ensures r.Err? <==> forall v | v in descendants :: !HasPath(v, path)
    ensures r.Err? ==> r.error == BtrfsSubvolumeNotFoundByPath(path)
  {
    match FirstWhere(descendants, v => HasPath(v, path))
    case None => Err(BtrfsSubvolumeNotFoundByPath(path))
    case Some(i) => Ok(descendants[i])
  }

  // ------------------------------------------------- fstab and mount entries

  /** An /etc/fstab or /proc/mounts line: device, mount point and mount options. */
  datatype FstabEntry = FstabEntry(device: string, mountPoint: string, mountOpts: seq<string>)

  /** The mount options select a subvolume by path. */
  predicate HasSubvol(mountOpts: seq<string>) {
    exists o | o in mountOpts :: StartsWith(o, "subvol=")
  }

  /** The mount options select the subvolume with the given id. */
  predicate HasSubvolId(mountOpts: seq<string>, id: int) {
    "subvolid=" + IntToString(id) in mountOpts
  }

  predicate MountsWholeFilesystem(e: FstabEntry) {
    !HasSubvol(e.mountOpts)
  }

  /** The /etc/fstab entries for the filesystem itself: those without a subvolume option. */
  function FindEtcFstabEntries(matched: seq<FstabEntry>): (r: seq<FstabEntry>)
    ensures forall e :: e in r <==> e in matched && !HasSubvol(e.mountOpts)
  {
    Filter(matched, MountsWholeFilesystem)
  }

  /** Looking at more fstab entries appends the new matches after the old ones. */
  lemma FindEtcFstabEntriesAppend(a: seq<FstabEntry>, b: seq<FstabEntry>)
    ensures FindEtcFstabEntries(a + b) == FindEtcFstabEntries(a) + FindEtcFstabEntries(b)
  {
    FilterAppend(a, b, MountsWholeFilesystem);
  }

  predicate MountsDefault(e: FstabEntry, defaultId: int) {
    !HasSubvol(e.mountOpts) || HasSubvolId(e.mountOpts, defaultId)
  }

  /**
   * The /proc/mounts entries for the filesystem itself: those without a
   * subvolume option or with the id of the default subvolume. Without a
   * default subvolume the lookup of its id fails.
   */
  function FindProcMountsEntries(descendants: seq<Vertex>, mounts: seq<FstabEntry>): (r: Result<seq<FstabEntry>>)
    ensures r.Err? <==> GetDefaultBtrfsSubvolume(descendants).Err?
    ensures r.Err? ==> r.error == Exception("no default btrfs subvolume found")
    ensures r.Ok? ==>
              var defaultId := GetDefaultBtrfsSubvolume(descendants).value.data.id;
              forall e :: e in r.value <==>
                e in mounts && (!HasSubvol(e.mountOpts) || HasSubvolId(e.mountOpts, defaultId))
  {
    match GetDefaultBtrfsSubvolume(descendants)
    case Err(e) => Err(e)
    case Ok(default) => Ok(Filter(mounts, e => MountsDefault(e, default.data.id)))
  }

  // ---------------------------------------------------------- probe pass 2b

  /** The id of a subvolume, the sort key of the second probe pass. */
  function IdOf(v: Vertex): int {
    if v.data.BtrfsSubvolume? then v.data.id else 0
  }

  predicate SortedById(vs: seq<Vertex>) {
    forall i, j | 0 <= i < j < |vs| :: IdOf(vs[i]) <= IdOf(vs[j])
  }

  /** Inserts v into a sequence sorted by id, before the first larger id. */
  function InsertById(v: Vertex, sorted: seq<Vertex>): seq<Vertex> {
    if sorted == [] || IdOf(v) <= IdOf(sorted[0]) then [v] + sorted
    else [sorted[0]] + InsertById(v, sorted[1..])
  }

  /** Inserting adds exactly v. */
  lemma {:induction false} InsertByIdElements(v: Vertex, sorted: seq<Vertex>)
    ensures multiset(InsertById(v, sorted)) == multiset(sorted) + multiset{v}
  {
    if sorted != [] && IdOf(sorted[0]) < IdOf(v) {
      InsertByIdElements(v, sorted[1..]);
      assert sorted == [sorted[0]] + sorted[1..];
    }
  }

  /** Inserting into a sequence sorted by id keeps it sorted. */
  lemma {:induction false} InsertByIdSorted(v: Vertex, sorted: seq<Vertex>)
    requires SortedById(sorted)
    ensures SortedById(InsertById(v, sorted))
  {
    if sorted != [] && IdOf(sorted[0]) < IdOf(v) {
      var tail := sorted[1..];
      var rest := InsertById(v, tail);
      InsertByIdSorted(v, tail);
      InsertByIdElements(v, tail);
      forall k | 0 <= k < |rest| ensures IdOf(sorted[0]) <= IdOf(rest[k]) {
        assert rest[k] in multiset(rest);
        if rest[k] != v {
          assert rest[k] in multiset(tail);
          var j :| 0 <= j < |tail| && tail[j] == rest[k];
          assert sorted[j + 1] == rest[k];
        }
      }
    }
  }

  /** The subvolumes in ascending id order, as the second probe pass visits them. */
  function SortById(vs: seq<Vertex>): (r: seq<Vertex>)
    ensures SortedById(r)
    ensures multiset(r) == multiset(vs)
  {
    if vs == [] then []
    else
      var rest := SortById(vs[1..]);
      InsertByIdSorted(vs[0], rest);
      InsertByIdElements(vs[0], rest);
      assert vs == [vs[0]] + vs[1..];
      InsertById(vs[0], rest)
  }

  /** The order in which the second probe pass visits the subvolumes below the filesystem. */
  function ProbePass2bOrder(descendants: seq<Vertex>): (r: seq<Vertex>)
    ensures SortedById(r)
    ensures multiset(r) == multiset(BtrfsSubvolumes(descendants))
    ensures forall v :: v in r <==> v in descendants && IsSubvolume(v)
  {
    var r := SortById(BtrfsSubvolumes(descendants));
    assert forall v :: v in r <==> v in multiset(r);
    r
  }

  // ---------------------------------------------------------- probe pass 2a

  /** One line of `btrfs subvolume list`: id, id of the parent and path. */
  datatype SubvolumeListEntry = SubvolumeListEntry(id: int, parentId: int, path: string)

  /** What probe pass 2a does, in order. */
  datatype ProbeEvent =
    | Created(id: int)
    | Attached(parentId: int, id: int)
    | Refined(id: int)
    | DefaultSet(id: int)

  /** The ids of the listed subvolumes. */
  function ListIds(list: seq<SubvolumeListEntry>): (r: set<int>)
    ensures forall k :: k in r <==> exists i | 0 <= i < |list| :: list[i].id == k
  {
    if list == [] then {}
    else
      var n := |list| - 1;
      assert forall i | 0 <= i < n :: list[..n][i] == list[i];
      ListIds(list[..n]) + {list[n].id}
  }

  predicate DistinctIds(list: seq<SubvolumeListEntry>) {
    forall i, j | 0 <= i < j < |list| :: list[i].id != list[j].id
  }

  /**
   * What the tree construction relies on: the listed ids are distinct and
   * differ from the top-level id, every parent is the top level or listed,
   * and with any subvolume listed the default id is the top level or listed.
   */
  predicate WellFormedList(list: seq<SubvolumeListEntry>, topId: int, defaultId: int) {
    && DistinctIds(list)
    && (forall i | 0 <= i < |list| :: list[i].id != topId)
    && (forall i | 0 <= i < |list| :: list[i].parentId == topId || list[i].parentId in ListIds(list))
    && (list != [] ==> defaultId == topId || defaultId in ListIds(list))
  }

  /** Every listed subvolume and its parent have a sid. */
  predicate Resolved(list: seq<SubvolumeListEntry>, sidOf: map<int, Sid>) {
    forall i | 0 <= i < |list| :: list[i].id in sidOf && list[i].parentId in sidOf
  }

  /** The parent-to-child edges of the listed subvolumes. */
  function SubvolumeEdges(list: seq<SubvolumeListEntry>, sidOf: map<int, Sid>): (r: set<Edge>)
    requires Resolved(list, sidOf)
    ensures forall e :: e in r <==>
              exists i | 0 <= i < |list| :: e == Edge(sidOf[list[i].parentId], sidOf[list[i].id])
  {
    if list == [] then {}
    else
      var n := |list| - 1;
      var before := SubvolumeEdges(list[..n], sidOf);
      assert forall i | 0 <= i < n :: list[..n][i] == list[i];
      before + {Edge(sidOf[list[n].parentId], sidOf[list[n].id])}
  }

  /** The edges do not depend on the order in which the subvolumes are listed. */
  lemma SubvolumeEdgesIgnoreOrder(list1: seq<SubvolumeListEntry>, list2: seq<SubvolumeListEntry>, sidOf: map<int, Sid>)
    requires multiset(list1) == multiset(list2)
    requires Resolved(list1, sidOf)
    ensures Resolved(list2, sidOf)
    ensures SubvolumeEdges(list1, sidOf) == SubvolumeEdges(list2, sidOf)
  {
    forall j | 0 <= j < |list2|
      ensures exists i | 0 <= i < |list1| :: list1[i] == list2[j]
    {
      assert list2[j] in multiset(list2);
      assert list2[j] in list1;
    }
    forall e | e in SubvolumeEdges(list1, sidOf)
      ensures e in SubvolumeEdges(list2, sidOf)
    {
      var i :| 0 <= i < |list1| && e == Edge(sidOf[list1[i].parentId], sidOf[list1[i].id]);
      assert list1[i] in multiset(list1);
      assert list1[i] in list2;
      var j :| 0 <= j < |list2| && list2[j] == list1[i];
    }
  }

  /**
   * With distinct sids for the listed subvolumes, each of them is the target
   * of exactly one of the edges, the one from its parent.
   */
  lemma SubvolumeEdgesOneParent(list: seq<SubvolumeListEntry>, sidOf: map<int, Sid>)
    requires Resolved(list, sidOf)
    requires forall i, j | 0 <= i < j < |list| :: sidOf[list[i].id] != sidOf[list[j].id]
    ensures forall i, e | 0 <= i < |list| && e in SubvolumeEdges(list, sidOf) && e.target == sidOf[list[i].id] ::
              e.source == sidOf[list[i].parentId]
  {
    forall i, e | 0 <= i < |list| && e in SubvolumeEdges(list, sidOf) && e.target == sidOf[list[i].id]
      ensures e.source == sidOf[list[i].parentId]
    {
      var k :| 0 <= k < |list| && e == Edge(sidOf[list[k].parentId], sidOf[list[k].id]);
      assert k == i by {
        if k < i {
        } else if i < k {
        }
      }
    }
  }

  /** The three loops of probe pass 2a, each over the whole list. */
  datatype Stage = Creation | Attachment | Refinement

  function StageEvent(stage: Stage, e: SubvolumeListEntry): ProbeEvent {
    match stage
    case Creation => Created(e.id)
    case Attachment => Attached(e.parentId, e.id)
    case Refinement => Refined(e.id)
  }

  /** What one stage does, entry by entry in list order. */
  function StageEvents(stage: Stage, list: seq<SubvolumeListEntry>): seq<ProbeEvent> {
    if list == [] then []
    else StageEvents(stage, list[..|list| - 1]) + [StageEvent(stage, list[|list| - 1])]
  }

  lemma StageEventsSnoc(stage: Stage, list: seq<SubvolumeListEntry>, n: nat)
    requires n < |list|
    ensures StageEvents(stage, list[..n + 1]) == StageEvents(stage, list[..n]) + [StageEvent(stage, list[n])]
  {
    assert list[..n + 1][..n] == list[..n];
  }

  /** A stage has one event per listed entry, in list order. */
  lemma {:induction false} StageEventsAt(stage: Stage, list: seq<SubvolumeListEntry>)
    ensures |StageEvents(stage, list)| == |list|
    ensures forall i | 0 <= i < |list| :: StageEvents(stage, list)[i] == StageEvent(stage, list[i])
  {
    if list != [] {
      var n := |list| - 1;
      StageEventsAt(stage, list[..n]);
    }
  }

  /** Everything probe pass 2a does for a list of subvolumes, in order. */
  function ProbeTrace(list: seq<SubvolumeListEntry>, defaultId: int): seq<ProbeEvent> {
    StageEvents(Creation, list) + StageEvents(Attachment, list) + StageEvents(Refinement, list) +
    (if list != [] then [DefaultSet(defaultId)] else [])
  }

  /**
   * All subvolumes are created before any edge is added, all edges are added
   * before any subvolume is refined, and the default is set last, once, when
   * any subvolume is listed.
   */
  lemma ProbeTraceOrder(list: seq<SubvolumeListEntry>, defaultId: int)
    ensures var t := ProbeTrace(list, defaultId);
            && |t| == 3 * |list| + (if list != [] then 1 else 0)
            && (forall i | 0 <= i < |t| :: t[i].Created? <==> i < |list|)
            && (forall i | 0 <= i < |t| :: t[i].Attached? <==> |list| <= i < 2 * |list|)
            && (forall i | 0 <= i < |t| :: t[i].Refined? <==> 2 * |list| <= i < 3 * |list|)
            && (forall i | 0 <= i < |t| :: t[i].DefaultSet? <==> i == 3 * |list|)
            && (forall i | 0 <= i < |list| ::
                  t[i] == Created(list[i].id) && t[|list| + i] == Attached(list[i].parentId, list[i].id) &&
                  t[2 * |list| + i] == Refined(list[i].id))
  {
    StageEventsAt(Creation, list);
    StageEventsAt(Attachment, list);
    StageEventsAt(Refinement, list);
  }

  /** The attributes of a subvolume just created for a list entry. */
  function NewSubvolume(e: SubvolumeListEntry): DeviceData {
    BtrfsSubvolume(e.id, e.path, false)
  }

  /** The subvolume devices created for the list, the i-th under sid base + i. */
  function NewSubvolumes(list: seq<SubvolumeListEntry>, base: Sid): map<Sid, DeviceData> {
    map s: Sid | base <= s < base + |list| :: NewSubvolumeAt(list, base, s)
  }

  /** The attributes of the subvolume created under sid s. */
  function NewSubvolumeAt(list: seq<SubvolumeListEntry>, base: Sid, s: Sid): DeviceData
    requires base <= s < base + |list|
  {
    NewSubvolume(list[s - base])
  }

  /** The sids the listed ids are registered under, the i-th under base + i. */
  function SubvolumeSids(list: seq<SubvolumeListEntry>, base: Sid): map<int, Sid> {
    if list == [] then map[]
    else
      var n := |list| - 1;
      SubvolumeSids(list[..n], base)[list[n].id := base + n]
  }

  /** The merge of the old devices with the new subvolumes, at one sid. */
  lemma CreatedAt(devices: map<Sid, DeviceData>, list: seq<SubvolumeListEntry>, base: Sid, s: Sid)
    requires s in devices || base <= s < base + |list|
    ensures s in devices + NewSubvolumes(list, base)
    ensures !(base <= s < base + |list|) ==> (devices + NewSubvolumes(list, base))[s] == devices[s]
    ensures base <= s < base + |list| ==> (devices + NewSubvolumes(list, base))[s] == NewSubvolume(list[s - base])
  {
    if base <= s < base + |list| {
      assert NewSubvolumes(list, base)[base + (s - base)] == NewSubvolume(list[s - base]);
    }
  }

  /** With distinct ids, the list's i-th id is registered under sid base + i. */
  lemma {:induction false} SubvolumeSidsAt(list: seq<SubvolumeListEntry>, base: Sid)
    requires DistinctIds(list)
    ensures SubvolumeSids(list, base).Keys == ListIds(list)
    ensures forall i | 0 <= i < |list| :: SubvolumeSids(list, base)[list[i].id] == base + i
  {
    if list != [] {
      var n := |list| - 1;
      assert forall i | 0 <= i < n :: list[..n][i] == list[i];
      SubvolumeSidsAt(list[..n], base);
    }
  }

  /** Creating the next listed subvolume extends the created devices by one. */
  lemma NewSubvolumesSnoc(devices: map<Sid, DeviceData>, list: seq<SubvolumeListEntry>, base: Sid, n: nat)
    requires n < |list|
    ensures (devices + NewSubvolumes(list[..n], base))[base + n := NewSubvolume(list[n])]
            == devices + NewSubvolumes(list[..n + 1], base)
  {
    assert list[..n + 1][..n] == list[..n];
  }

  /** Registering the next listed subvolume extends the registered sids by one. */
  lemma SubvolumeSidsSnoc(byId: map<int, Sid>, list: seq<SubvolumeListEntry>, base: Sid, n: nat)
    requires n < |list|
    ensures (byId + SubvolumeSids(list[..n], base))[list[n].id := base + n]
            == byId + SubvolumeSids(list[..n + 1], base)
  {
    assert list[..n + 1][..n] == list[..n];
  }

  /** A subvolume's attributes with the default flag set. */
  function MarkDefault(d: DeviceData): DeviceData {
    if d.BtrfsSubvolume? then d.(isDefault := true) else d
  }

  /** Flags the subvolume with the given sid as the default subvolume. */
  method SetDefaultBtrfsSubvolume(g: Devicegraph, sid: Sid)
    requires g.Valid() && sid in g.devices
    modifies g
    ensures g.Valid() && g.edges == old(g.edges) && g.nextSid == old(g.nextSid)
    ensures g.devices == old(g.devices)[sid := MarkDefault(old(g.devices)[sid])]
  {
    g.SetDeviceData(sid, MarkDefault(g.devices[sid]));
  }

  /**
   * First stage: a new subvolume device for every listed entry, each under the
   * next sid of the graph, and its sid registered under its id in byId.
   */
  method CreateSubvolumes(g: Devicegraph, list: seq<SubvolumeListEntry>, byId: map<int, Sid>)
    returns (byId': map<int, Sid>, trace: seq<ProbeEvent>)
    requires g.Valid()
    modifies g
    ensures g.Valid() && g.edges == old(g.edges) && g.nextSid == old(g.nextSid) + |list|
    ensures g.devices == old(g.devices) + NewSubvolumes(list, old(g.nextSid))
    ensures byId' == byId + SubvolumeSids(list, old(g.nextSid))
    ensures trace == StageEvents(Creation, list)
  {
    byId', trace := byId, [];
    ghost var base, devices := g.nextSid, g.devices;
    for i := 0 to |list|
      invariant g.Valid() && g.edges == old(g.edges) && g.nextSid == base + i
      invariant g.devices == devices + NewSubvolumes(list[..i], base)
      invariant byId' == byId + SubvolumeSids(list[..i], base)
      invariant trace == StageEvents(Creation, list[..i])
    {
      NewSubvolumesSnoc(devices, list, base, i);
      SubvolumeSidsSnoc(byId, list, base, i);
      StageEventsSnoc(Creation, list, i);
      var sid := g.AddDevice(NewSubvolume(list[i]));
      assert sid == base + i;
      byId' := byId'[list[i].id := sid];
      trace := trace + [Created(list[i].id)];
    }
    assert list[..|list|] == list;
  }

  /**
   * Second stage: an edge from the parent to the child for every listed
   * entry, added as a new holder; no insertion is refused.
   */
  method AddSubvolumeEdges(g: Devicegraph, list: seq<SubvolumeListEntry>, byId: map<int, Sid>)
    returns (trace: seq<ProbeEvent>)
    requires g.Valid()
    requires Resolved(list, byId)
    requires forall i | 0 <= i < |list| :: byId[list[i].id] in g.devices && byId[list[i].parentId] in g.devices
    requires forall i, j | 0 <= i < j < |list| :: byId[list[i].id] != byId[list[j].id]
    requires forall i, e | 0 <= i < |list| && e in g.edges :: e.target != byId[list[i].id]
    modifies g
    ensures g.Valid() && g.devices == old(g.devices) && g.nextSid == old(g.nextSid)
    ensures g.edges == old(g.edges) + SubvolumeEdges(list, byId)
    ensures trace == StageEvents(Attachment, list)
  {
    trace := [];
    ghost var edges := g.edges;
    for i := 0 to |list|
      invariant g.Valid() && g.devices == old(g.devices) && g.nextSid == old(g.nextSid)
      invariant Resolved(list[..i], byId)
      invariant g.edges == edges + SubvolumeEdges(list[..i], byId)
      invariant trace == StageEvents(Attachment, list[..i])
    {
      var child := Device(byId[list[i].id], g);
      var parent := Device(byId[list[i].parentId], g);
      NotYetAttached(edges, list, byId, i);
      var impl := new HolderImpl();
      var subdevice := new Holder(impl);
      var added := subdevice.Create(g, parent, child);
      assert added == Pass;
      SubvolumeEdgesSnoc(edges, list, byId, i);
      StageEventsSnoc(Attachment, list, i);
      trace := trace + [Attached(list[i].parentId, list[i].id)];
    }
    assert list[..|list|] == list;
  }

  /** Attaching the next listed subvolume extends the edges by one. */
  lemma SubvolumeEdgesSnoc(edges: set<Edge>, list: seq<SubvolumeListEntry>, byId: map<int, Sid>, n: nat)
    requires Resolved(list, byId) && n < |list|
    ensures Resolved(list[..n], byId) && Resolved(list[..n + 1], byId)
    ensures edges + SubvolumeEdges(list[..n], byId) + {Edge(byId[list[n].parentId], byId[list[n].id])}
            == edges + SubvolumeEdges(list[..n + 1], byId)
  {
    assert list[..n + 1][..n] == list[..n];
  }

  /** The edge to the next listed subvolume is not there yet. */
  lemma NotYetAttached(edges: set<Edge>, list: seq<SubvolumeListEntry>, byId: map<int, Sid>, n: nat)
    requires Resolved(list, byId) && n < |list|
    requires forall i, j | 0 <= i < j < |list| :: byId[list[i].id] != byId[list[j].id]
    requires forall i, e | 0 <= i < |list| && e in edges :: e.target != byId[list[i].id]
    ensures Resolved(list[..n], byId)
    ensures Edge(byId[list[n].parentId], byId[list[n].id]) !in edges + SubvolumeEdges(list[..n], byId)
  {
  }

  /** Third stage: the refinement of every listed subvolume, in list order. */
  method RefineSubvolumes(list: seq<SubvolumeListEntry>) returns (trace: seq<ProbeEvent>)
    ensures trace == StageEvents(Refinement, list)
  {
    trace := [];
    for i := 0 to |list|
      invariant trace == StageEvents(Refinement, list[..i])
    {
      StageEventsSnoc(Refinement, list, i);
      trace := trace + [Refined(list[i].id)];
    }
    assert list[..|list|] == list;
  }

  lemma {:induction false} SubsetCount<T>(a: set<T>, b: set<T>)
    requires a <= b
    ensures |a| <= |b|
  {
    if a != {} {
      var x :| x in a;
      SubsetCount(a - {x}, b - {x});
    }
  }

  /** Besides the top level, byId knows a subvolume exactly when one is listed. */
  lemma MoreThanTopLevel(topId: int, list: seq<SubvolumeListEntry>, byId: map<int, Sid>)
    requires byId.Keys == {topId} + ListIds(list)
    requires forall i | 0 <= i < |list| :: list[i].id != topId
    ensures |byId| > 1 <==> list != []
  {
    if list != [] {
      assert {topId, list[0].id} <= byId.Keys;
      SubsetCount({topId, list[0].id}, byId.Keys);
    } else {
      assert byId.Keys == {topId};
    }
  }

  /**
   * The id-to-sid map of the tree: the top level under its own sid, the
   * listed subvolumes under the sids created for them.
   */
  lemma TreeSids(topId: int, topSid: Sid, list: seq<SubvolumeListEntry>, base: Sid, defaultId: int, byId: map<int, Sid>)
    requires WellFormedList(list, topId, defaultId)
    requires byId == map[topId := topSid] + SubvolumeSids(list, base)
    ensures byId.Keys == {topId} + ListIds(list) && byId[topId] == topSid
    ensures forall i | 0 <= i < |list| :: list[i].id in byId && byId[list[i].id] == base + i
    ensures Resolved(list, byId)
    ensures forall i | 0 <= i < |list| ::
              byId[list[i].parentId] == topSid || base <= byId[list[i].parentId] < base + |list|
    ensures list != [] ==> defaultId in byId && (byId[defaultId] == topSid || base <= byId[defaultId] < base + |list|)
  {
    SubvolumeSidsAt(list, base);
    forall i | 0 <= i < |list|
      ensures byId[list[i].parentId] == topSid || base <= byId[list[i].parentId] < base + |list|
    {
      if list[i].parentId != topId {
        var j :| 0 <= j < |list| && list[j].id == list[i].parentId;
      }
    }
  }

  /** The devices with the one under defaultSid, if any, flagged default. */
  function WithDefault(devices: map<Sid, DeviceData>, defaultSid: Option<Sid>): map<Sid, DeviceData> {
    match defaultSid
    case Some(sid) => if sid in devices then devices[sid := MarkDefault(devices[sid])] else devices
    case None => devices
  }

  /** The sid flagged default after the tree is built: the default's, once any subvolume is listed. */
  function DefaultSid(list: seq<SubvolumeListEntry>, byId: map<int, Sid>, defaultId: int): Option<Sid> {
    if list != [] && defaultId in byId then Some(byId[defaultId]) else None
  }

  /** The default id names a subvolume among the devices once the tree's nodes are created. */
  lemma DefaultCreated(devices: map<Sid, DeviceData>, list: seq<SubvolumeListEntry>, base: Sid,
                       topId: int, topSid: Sid, defaultId: int, byId: map<int, Sid>)
    requires WellFormedList(list, topId, defaultId) && list != []
    requires topSid in devices && topSid < base
    requires devices[topSid].BtrfsSubvolume? && devices[topSid].id == topId
    requires byId == map[topId := topSid] + SubvolumeSids(list, base)
    ensures defaultId in byId && byId[defaultId] in devices + NewSubvolumes(list, base)
    ensures (devices + NewSubvolumes(list, base))[byId[defaultId]].BtrfsSubvolume?
    ensures (devices + NewSubvolumes(list, base))[byId[defaultId]].id == defaultId
  {
    TreeSids(topId, topSid, list, base, defaultId, byId);
    if defaultId == topId {
      CreatedAt(devices, list, base, topSid);
    } else {
      var j :| 0 <= j < |list| && list[j].id == defaultId;
      assert byId[list[j].id] == base + j;
      CreatedAt(devices, list, base, base + j);
    }
  }

  /**
   * After the tree is built from a non-empty list, the subvolume with the
   * reported default id is flagged default.
   */
  lemma ProbedDefaultIsFlagged(devices: map<Sid, DeviceData>, list: seq<SubvolumeListEntry>, base: Sid,
                               topId: int, topSid: Sid, defaultId: int, byId: map<int, Sid>)
    requires WellFormedList(list, topId, defaultId) && list != []
    requires topSid in devices && topSid < base
    requires devices[topSid].BtrfsSubvolume? && devices[topSid].id == topId
    requires byId == map[topId := topSid] + SubvolumeSids(list, base)
    ensures defaultId in byId
    ensures var after := WithDefault(devices + NewSubvolumes(list, base), DefaultSid(list, byId, defaultId));
            && byId[defaultId] in after
            && after[byId[defaultId]].BtrfsSubvolume?
            && after[byId[defaultId]].id == defaultId && after[byId[defaultId]].isDefault
  {
    DefaultCreated(devices, list, base, topId, topSid, defaultId, byId);
  }

  /** A listed subvolume other than the default is registered under a sid that is not the default's. */
  lemma OtherSid(list: seq<SubvolumeListEntry>, base: Sid, topId: int, topSid: Sid, defaultId: int,
                 byId: map<int, Sid>, i: nat)
    requires WellFormedList(list, topId, defaultId)
    requires topSid < base
    requires byId == map[topId := topSid] + SubvolumeSids(list, base)
    requires i < |list| && list[i].id != defaultId
    ensures defaultId in byId ==> byId[defaultId] != base + i
  {
    TreeSids(topId, topSid, list, base, defaultId, byId);
    if defaultId in byId && defaultId != topId {
      var j :| 0 <= j < |list| && list[j].id == defaultId;
      assert byId[defaultId] == base + j;
    }
  }

  /**
   * After the tree is built, the newly created subvolumes other than the
   * default keep the attributes they were created with, unflagged.
   */
  lemma ProbedOthersUnflagged(devices: map<Sid, DeviceData>, list: seq<SubvolumeListEntry>, base: Sid,
                              topId: int, topSid: Sid, defaultId: int, byId: map<int, Sid>)
    requires WellFormedList(list, topId, defaultId)
    requires topSid in devices && topSid < base
    requires byId == map[topId := topSid] + SubvolumeSids(list, base)
    ensures var after := WithDefault(devices + NewSubvolumes(list, base), DefaultSid(list, byId, defaultId));
            forall i | 0 <= i < |list| && list[i].id != defaultId ::
              base + i in after && after[base + i] == NewSubvolume(list[i])
  {
    forall i | 0 <= i < |list| && list[i].id != defaultId
      ensures var after := WithDefault(devices + NewSubvolumes(list, base), DefaultSid(list, byId, defaultId));
              base + i in after && after[base + i] == NewSubvolume(list[i])
    {
      OtherSid(list, base, topId, topSid, defaultId, byId, i);
      CreatedAt(devices, list, base, base + i);
    }
  }

  /**
   * More than the top level is known exactly when a subvolume is listed, and
   * then the default subvolume is among the devices.
   */
  lemma DefaultKnown(devices: map<Sid, DeviceData>, list: seq<SubvolumeListEntry>, base: Sid,
                     topId: int, topSid: Sid, defaultId: int, byId: map<int, Sid>)
    requires WellFormedList(list, topId, defaultId)
    requires topSid in devices
    requires byId == map[topId := topSid] + SubvolumeSids(list, base)
    ensures |byId| > 1 <==> list != []
    ensures list != [] ==> defaultId in byId && byId[defaultId] in devices + NewSubvolumes(list, base)
  {
    TreeSids(topId, topSid, list, base, defaultId, byId);
    MoreThanTopLevel(topId, list, byId);
    if list != [] {
      CreatedAt(devices, list, base, byId[defaultId]);
    }
  }

  /** The first two stages: all subvolumes are created, then all are attached to their parents. */
  method CreateAndAttach(g: Devicegraph, top: Vertex, list: seq<SubvolumeListEntry>, defaultId: int)
    returns (byId: map<int, Sid>, trace: seq<ProbeEvent>)
    requires g.Valid() && IsSubvolume(top) && top.sid in g.devices
    requires WellFormedList(list, top.data.id, defaultId)
    modifies g
    ensures g.Valid() && g.nextSid == old(g.nextSid) + |list|
    ensures byId == map[top.data.id := top.sid] + SubvolumeSids(list, old(g.nextSid))
    ensures Resolved(list, byId)
    ensures g.devices == old(g.devices) + NewSubvolumes(list, old(g.nextSid))
    ensures g.edges == old(g.edges) + SubvolumeEdges(list, byId)
    ensures trace == StageEvents(Creation, list) + StageEvents(Attachment, list)
  {
    ghost var base := g.nextSid;
    var created, attached;
    byId, created := CreateSubvolumes(g, list, map[top.data.id := top.sid]);
    TreeSids(top.data.id, top.sid, list, base, defaultId, byId);
    attached := AddSubvolumeEdges(g, list, byId);
    trace := created + attached;
  }

  /**
   * Last stage: when more than the top level is known, the subvolume with the
   * default id is flagged default.
   */
  method FlagDefault(g: Devicegraph, list: seq<SubvolumeListEntry>, byId: map<int, Sid>, defaultId: int)
    returns (trace: seq<ProbeEvent>)
    requires g.Valid()
    requires |byId| > 1 <==> list != []
    requires list != [] ==> defaultId in byId && byId[defaultId] in g.devices
    modifies g
    ensures g.Valid() && g.nextSid == old(g.nextSid) && g.edges == old(g.edges)
    ensures g.devices == WithDefault(old(g.devices), DefaultSid(list, byId, defaultId))
    ensures trace == if list != [] then [DefaultSet(defaultId)] else []
  {
    trace := [];
    if |byId| > 1 {
      SetDefaultBtrfsSubvolume(g, byId[defaultId]);
      trace := [DefaultSet(defaultId)];
    }
  }

  /**
   * Builds the subvolume tree below the top-level subvolume `top` from the
   * entries of `btrfs subvolume list`: all nodes first, then all edges, then
   * the refinement of each node, and finally, when more than the top level is
   * known, the default flag.
   */
  method BuildSubvolumeTree(g: Devicegraph, top: Vertex, list: seq<SubvolumeListEntry>, defaultId: int)
    returns (byId: map<int, Sid>, trace: seq<ProbeEvent>)
    requires g.Valid() && IsSubvolume(top) && top.sid in g.devices
    requires WellFormedList(list, top.data.id, defaultId)
    modifies g
    ensures g.Valid() && g.nextSid == old(g.nextSid) + |list|
    ensures byId == map[top.data.id := top.sid] + SubvolumeSids(list, old(g.nextSid))
    ensures Resolved(list, byId)
    ensures g.edges == old(g.edges) + SubvolumeEdges(list, byId)
    ensures g.devices == WithDefault(old(g.devices) + NewSubvolumes(list, old(g.nextSid)), DefaultSid(list, byId, defaultId))
    ensures trace == ProbeTrace(list, defaultId)
  {
    ghost var base, devices := g.nextSid, g.devices;
    var refined;
    byId, trace := CreateAndAttach(g, top, list, defaultId);
    refined := RefineSubvolumes(list);
    trace := trace + refined;
    DefaultKnown(devices, list, base, top.data.id, top.sid, defaultId, byId);
    var flagged := FlagDefault(g, list, byId, defaultId);
    trace := trace + flagged;
  }

  /**
   * Probe pass 2a of a Btrfs with the given children: finds the top-level
   * subvolume and builds the subvolume tree below it. Every listed
   * subvolume, whatever its place in the list, ends up below its parent.
   */
  method ProbePass2a(g: Devicegraph, children: seq<Vertex>, list: seq<SubvolumeListEntry>, defaultId: int)
    returns (r: Outcome, byId: map<int, Sid>, trace: seq<ProbeEvent>)
    requires g.Valid()
    requires forall v | v in children :: v.sid in g.devices
    requires GetTopLevelBtrfsSubvolume(children).Ok? ==>
               WellFormedList(list, GetTopLevelBtrfsSubvolume(children).value.data.id, defaultId)
    modifies g
    ensures g.Valid()
    ensures r.Fail? <==> GetTopLevelBtrfsSubvolume(children).Err?
    ensures r.Fail? ==> r.error == Exception("no top-level subvolume found") && unchanged(g) && trace == []
    ensures r.Pass? ==>
              var top := GetTopLevelBtrfsSubvolume(children).value;
              && g.nextSid == old(g.nextSid) + |list|
              && byId == map[top.data.id := top.sid] + SubvolumeSids(list, old(g.nextSid))
              && Resolved(list, byId)
              && (forall i | 0 <= i < |list| :: Edge(byId[list[i].parentId], byId[list[i].id]) in g.edges)
              && g.edges == old(g.edges) + SubvolumeEdges(list, byId)
              && g.devices == WithDefault(old(g.devices) + NewSubvolumes(list, old(g.nextSid)), DefaultSid(list, byId, defaultId))
              && trace == ProbeTrace(list, defaultId)
  {
    var top := GetTopLevelBtrfsSubvolume(children);
    if top.Err? {
      return Fail(top.error), map[], [];
    }
    byId, trace := BuildSubvolumeTree(g, top.value, list, defaultId);
    r := Pass;
  }

  /**
   * Probe pass 2b of a Btrfs with the given children and descendants: the
   * top-level subvolume is looked up first, then the subvolumes are visited
   * in ascending id order.
   */
  method ProbePass2b(children: seq<Vertex>, descendants: seq<Vertex>) returns (r: Outcome, visited: seq<Vertex>)
    ensures r.Fail? <==> GetTopLevelBtrfsSubvolume(children).Err?
    ensures r.Fail? ==> r.error == Exception("no top-level subvolume found") && visited == []
    ensures r.Pass? ==> SortedById(visited) && multiset(visited) == multiset(BtrfsSubvolumes(descendants))
  {
    var top := GetTopLevelBtrfsSubvolume(children);
    if top.Err? {
      return Fail(top.error), [];
    }
    r, visited := Pass, ProbePass2bOrder(descendants);
  }

  // --------------------------------------------------- features and creation

  /** The snapper configuration made for a Btrfs. */
  datatype SnapperConfig = SnapperConfig(btrfs: Sid)

  class BtrfsFilesystem {
    const sid: Sid
    var configureSnapper: bool
    var snapperConfig: Option<SnapperConfig>

    constructor (sid: Sid)
      ensures this.sid == sid && !configureSnapper && snapperConfig.None?
    {
      this.sid := sid;
      configureSnapper, snapperConfig := false, None;
    }

    /**
     * The features the filesystem uses: those of a block filesystem plus
     * Btrfs, plus snapshots when snapper is to be configured.
     */
    function UsedFeatures(inherited: bv64): (f: bv64)
      reads this
      ensures Has(f, UF_BTRFS)
      ensures configureSnapper ==> Has(f, UF_SNAPSHOTS)
      ensures !Has(inherited, UF_SNAPSHOTS) ==> (Has(f, UF_SNAPSHOTS) <==> configureSnapper)
      ensures f & !(UF_BTRFS | UF_SNAPSHOTS) == inherited & !(UF_BTRFS | UF_SNAPSHOTS)
    {
      var features := UF_BTRFS | inherited;
      if configureSnapper then features | UF_SNAPSHOTS else features
    }

    /** No inherited feature bit is ever cleared, UF_SNAPSHOTS included. */
    lemma UsedFeaturesKeepsInherited(inherited: bv64)
      ensures UsedFeatures(inherited) & inherited == inherited
    {
    }

    /**
     * Creation after mkfs.btrfs exited with mkfsExit: a failure raises;
     * otherwise a snapper configuration is made if wanted and not made yet.
     */
    method DoCreate(mkfsExit: int) returns (r: Outcome)
      modifies this
      ensures mkfsExit != 0 ==> r == Fail(Exception("create btrfs failed")) && unchanged(this)
      ensures mkfsExit == 0 ==> r == Pass && configureSnapper == old(configureSnapper)
      ensures mkfsExit == 0 && old(configureSnapper) && old(snapperConfig).None? ==>
                snapperConfig == Some(SnapperConfig(sid))
      ensures !(mkfsExit == 0 && old(configureSnapper) && old(snapperConfig).None?) ==>
                snapperConfig == old(snapperConfig)
    {
      if mkfsExit != 0 {
        return Fail(Exception("create btrfs failed"));
      }
      if configureSnapper && snapperConfig.None? {
        snapperConfig := Some(SnapperConfig(sid));
      }
      r := Pass;
    }
  }
}

=== FILE: crypttab.dfy ===
/**
 * The /etc/crypttab registry as the Luks code uses it: a list of entries that
 * is changed in memory and then written back to the file.
 */
module Crypttab {
  import opened Results

  datatype CrypttabEntry = CrypttabEntry(cryptDevice: string, blockDevice: string, cryptOpts: seq<string>)

  /** The index of the first entry for the given block device. */
  function FindBlockDevice(entries: seq<CrypttabEntry>, blockDevice: string): (r: Option<nat>)
    ensures r.Some? ==> r.value < |entries| && entries[r.value].blockDevice == blockDevice
    ensures r.Some? ==> forall j | 0 <= j < r.value :: entries[j].blockDevice != blockDevice
    ensures r.None? <==> forall j | 0 <= j < |entries| :: entries[j].blockDevice != blockDevice
  {
    if entries == [] then None
    else if entries[0].blockDevice == blockDevice then Some(0)
    else match FindBlockDevice(entries[1..], blockDevice)
      case None => None
      case Some(i) => Some(i + 1)
  }

  /** The entries after pointing the entry for oldName, if any, at newName. */
  function RenameEntry(entries: seq<CrypttabEntry>, oldName: string, newName: string): (r: seq<CrypttabEntry>)
    ensures |r| == |entries|
    ensures forall j | 0 <= j < |r| :: r[j].cryptDevice == entries[j].cryptDevice && r[j].cryptOpts == entries[j].cryptOpts
    ensures FindBlockDevice(entries, oldName).None? ==> r == entries
    ensures FindBlockDevice(entries, oldName).Some? ==>
              var i := FindBlockDevice(entries, oldName).value;
              r[i].blockDevice == newName && forall j | 0 <= j < |r| && j != i :: r[j] == entries[j]
  {
    match FindBlockDevice(entries, oldName)
    case None => entries
    case Some(i) => entries[i := entries[i].(blockDevice := newName)]
  }

  /** The entries without the entry for blockDevice, if there is one. */
  function RemoveEntry(entries: seq<CrypttabEntry>, blockDevice: string): (r: seq<CrypttabEntry>)
    ensures FindBlockDevice(entries, blockDevice).None? ==> r == entries
    ensures FindBlockDevice(entries, blockDevice).Some? ==>
              var i := FindBlockDevice(entries, blockDevice).value;
              |r| + 1 == |entries| && multiset(r) + multiset{entries[i]} == multiset(entries)
  {
    match FindBlockDevice(entries, blockDevice)
    case None => entries
    case Some(i) =>
      assert entries == entries[..i] + [entries[i]] + entries[i + 1..];
      entries[..i] + entries[i + 1..]
  }

  /** Looking up a block device in entries + [e] finds an earlier entry first. */
  lemma {:induction false} FindBlockDeviceAppend(entries: seq<CrypttabEntry>, e: CrypttabEntry)
    ensures FindBlockDevice(entries + [e], e.blockDevice) ==
              if FindBlockDevice(entries, e.blockDevice).Some? then FindBlockDevice(entries, e.blockDevice)
              else Some(|entries|)
  {
    if entries != [] {
      assert (entries + [e])[1..] == entries[1..] + [e];
      FindBlockDeviceAppend(entries[1..], e);
    }
  }

  /**
   * Removing the block device of an entry just appended, when no older entry
   * has that block device, restores the registry.
   */
  lemma RemoveUndoesAdd(entries: seq<CrypttabEntry>, e: CrypttabEntry)
    requires FindBlockDevice(entries, e.blockDevice).None?
    ensures RemoveEntry(entries + [e], e.blockDevice) == entries
  {
    FindBlockDeviceAppend(entries, e);
    assert (entries + [e])[..|entries|] == entries;
  }

  class EtcCrypttab {
    /** The entries as held in memory. */
    var entries: seq<CrypttabEntry>
    /** The entries as last written to the file. */
    var written: seq<CrypttabEntry>

    constructor (entries: seq<CrypttabEntry>)
      ensures this.entries == entries && written == entries
    {
      this.entries, written := entries, entries;
    }

    method Add(e: CrypttabEntry)
      modifies this
      ensures entries == old(entries) + [e] && written == old(written)
    {
      entries := entries + [e];
    }

    method SetBlockDevice(i: nat, blockDevice: string)
      requires i < |entries|
      modifies this
      ensures entries == old(entries)[i := old(entries)[i].(blockDevice := blockDevice)]
      ensures written == old(written)
    {
      entries := entries[i := entries[i].(blockDevice := blockDevice)];
    }

    method Remove(i: nat)
      requires i < |entries|
      modifies this
      ensures entries == old(entries)[..i] + old(entries)[i + 1..] && written == old(written)
    {
      entries := entries[..i] + entries[i + 1..];
    }

    /** Writes the in-memory entries back to the file. */
    method Write()
      modifies this
      ensures written == entries && entries == old(entries)
    {
      written := entries;
    }
  }
}

=== FILE: devicegraph.dfy ===
/**
 * The device graph as an arena: devices are addressed by their storage id (sid)
 * and holders are directed (source, target) edges between sids.
 * Only what the holder and btrfs code needs is modelled.
 */
module Devicegraphs {
  import opened Results

  type Sid = nat

  /** The device attributes the modelled code reads or writes. */
  datatype DeviceData =
    | BtrfsSubvolume(id: int, path: string, isDefault: bool)
    | OtherDevice(classname: string)

  /** A holder edge from a source device to a target device. */
  datatype Edge = Edge(source: Sid, target: Sid)

  /** A device together with its attributes, as a graph query returns it. */
  datatype Vertex = Vertex(sid: Sid, data: DeviceData)

  class Devicegraph {
    var devices: map<Sid, DeviceData>
    var edges: set<Edge>
    var nextSid: Sid

    /** Sids are never reused and no edge dangles. */
    ghost predicate Valid()
      reads this
    {
      && (forall s | s in devices :: s < nextSid)
      && (forall e | e in edges :: e.source in devices && e.target in devices)
    }

    constructor ()
      ensures Valid() && devices == map[] && edges == {}
    {
      devices, edges, nextSid := map[], {}, 0;
    }

    /** Inserts a device under a sid never used before in this graph. */
    method AddDevice(data: DeviceData) returns (sid: Sid)
      requires Valid()
      modifies this
      ensures Valid()
      ensures sid !in old(devices) && sid == old(nextSid) && nextSid == old(nextSid) + 1
      ensures devices == old(devices)[sid := data] && edges == old(edges)
    {
      sid := nextSid;
      devices := devices[sid := data];
      nextSid := nextSid + 1;
    }

    /** Replaces the attributes of an existing device. */
    method SetDeviceData(sid: Sid, data: DeviceData)
      requires Valid() && sid in devices
      modifies this
      ensures Valid() && nextSid == old(nextSid)
      ensures devices == old(devices)[sid := data] && edges == old(edges)
    {
      devices := devices[sid := data];
    }

    /** The device with the given sid, if this graph has one. */
    function FindDevice(sid: Sid): (r: Option<Device>)
      reads this
      ensures r.Some? <==> sid in devices
      ensures r.Some? ==> r.value.sid == sid && r.value.graph == this
    {
      if sid in devices then Some(Device(sid, this)) else None
    }
  }

  /** A device handle: its sid and the graph that owns it. */
  datatype Device = Device(sid: Sid, graph: Devicegraph)
}

=== FILE: features.dfy ===
/** Bits of the used-features mask that the modelled devices report. */
module UsedFeatures {

  const UF_BTRFS: bv64 := 1 << 3
  const UF_LUKS: bv64 := 1 << 12
  const UF_SNAPSHOTS: bv64 := 1 << 23

  /** The mask has the given feature bit. */
  predicate Has(features: bv64, feature: bv64) {
    features & feature == feature
  }
}

=== FILE: holder.dfy ===
/**
 * Holders: directed edges of the device graph. A holder is inserted only
 * between two devices of the graph it is added to, and only once per
 * (source, target) pair.
 */
module Holders {
  import opened Results
  import opened Devicegraphs

  /** The state behind a holder: the graph and edge it was added as. */
  class HolderImpl {
    var graph: Devicegraph?
    var edge: Option<Edge>

    constructor ()
      ensures graph == null && edge == None
    {
      graph, edge := null, None;
    }
  }

  /**
   * What adding an edge from source to target to g gives when g already has
   * the edges `edges`: the graph of the source is checked first, then that of
   * the target, then whether the pair is already joined.
   */
  function AddOutcome(edges: set<Edge>, g: Devicegraph, source: Device, target: Device): (r: Outcome)
    ensures r.Pass? <==> source.graph == g && target.graph == g && Edge(source.sid, target.sid) !in edges
    ensures source.graph != g ==> r == Fail(RuntimeError("wrong graph in source"))
    ensures source.graph == g && target.graph != g ==> r == Fail(RuntimeError("wrong graph in target"))
    ensures source.graph == g && target.graph == g && Edge(source.sid, target.sid) in edges ==>
              r == Fail(RuntimeError("holder already exists"))
  {
    if source.graph != g then Fail(RuntimeError("wrong graph in source"))
    else if target.graph != g then Fail(RuntimeError("wrong graph in target"))
    else if Edge(source.sid, target.sid) in edges then Fail(RuntimeError("holder already exists"))
    else Pass
  }

  class Holder {
    const impl: HolderImpl

    constructor (impl: HolderImpl)
      ensures this.impl == impl
    {
      this.impl := impl;
    }

    /** A holder is either detached, or an edge of the graph it records. */
    ghost predicate Valid()
      reads this, impl, impl.graph
    {
      && (impl.graph == null <==> impl.edge.None?)
      && (impl.graph != null ==> impl.edge.value in impl.graph.edges)
    }

    /** The sid of the source device; it names a device of the holder's graph. */
    function SourceSid(): (s: Sid)
      reads this, impl, impl.graph
      requires Valid() && impl.graph != null
      ensures impl.graph.Valid() ==> s in impl.graph.devices
    {
      impl.edge.value.source
    }

    /** The sid of the target device; it names a device of the holder's graph. */
    function TargetSid(): (s: Sid)
      reads this, impl, impl.graph
      requires Valid() && impl.graph != null
      ensures impl.graph.Valid() ==> s in impl.graph.devices
    {
      impl.edge.value.target
    }

    /**
     * Inserts this holder into g as the edge source -> target. On failure
     * neither g nor the holder changes; on success g gains exactly that edge
     * and the holder records g and the edge.
     */
    method AddToDeviceGraph(g: Devicegraph, source: Device, target: Device) returns (r: Outcome)
      requires g.Valid()
      requires source.graph == g ==> source.sid in g.devices
      requires target.graph == g ==> target.sid in g.devices
      modifies g, impl
      ensures g.Valid() && g.devices == old(g.devices) && g.nextSid == old(g.nextSid)
      ensures r == AddOutcome(old(g.edges), g, source, target)
      ensures r.Fail? ==> g.edges == old(g.edges) && unchanged(impl)
      ensures r.Pass? ==> g.edges == old(g.edges) + {Edge(source.sid, target.sid)}
      ensures r.Pass? ==> impl.graph == g && impl.edge == Some(Edge(source.sid, target.sid)) && Valid()
    {
      if source.graph != g {
        return Fail(RuntimeError("wrong graph in source"));
      }
      if target.graph != g {
        return Fail(RuntimeError("wrong graph in target"));
      }
      var e := Edge(source.sid, target.sid);
      if e in g.edges {
        return Fail(RuntimeError("holder already exists"));
      }
      g.edges := g.edges + {e};
      impl.graph, impl.edge := g, Some(e);
      r := Pass;
    }

    /** Creating a holder is adding it to the graph. */
    method Create(g: Devicegraph, source: Device, target: Device) returns (r: Outcome)
      requires g.Valid()
      requires source.graph == g ==> source.sid in g.devices
      requires target.graph == g ==> target.sid in g.devices
      modifies g, impl
      ensures g.Valid() && g.devices == old(g.devices) && g.nextSid == old(g.nextSid)
      ensures r == AddOutcome(old(g.edges), g, source, target)
      ensures r.Fail? ==> g.edges == old(g.edges) && unchanged(impl)
      ensures r.Pass? ==> g.edges == old(g.edges) + {Edge(source.sid, target.sid)}
      ensures r.Pass? ==> impl.graph == g && impl.edge == Some(Edge(source.sid, target.sid)) && Valid()
    {
      r := AddToDeviceGraph(g, source, target);
    }

    /**
     * Rebuilds a holder from a stored node holding the child values
     * "source-sid" and "target-sid".
     */
    method Load(g: Devicegraph, node: map<string, Sid>) returns (r: Outcome)
      requires g.Valid()
      modifies g, impl
      ensures g.Valid() && g.devices == old(g.devices) && g.nextSid == old(g.nextSid)
      ensures "source-sid" !in node ==> r == Fail(RuntimeError("no source-sid"))
      ensures "source-sid" in node && "target-sid" !in node ==> r == Fail(RuntimeError("no target-sid"))
      ensures "source-sid" in node && "target-sid" in node ==>
                var s, t := node["source-sid"], node["target-sid"];
                if s !in old(g.devices) || t !in old(g.devices) then r == Fail(RuntimeError("device not found"))
                else r == AddOutcome(old(g.edges), g, Device(s, g), Device(t, g))
      ensures r.Fail? ==> g.edges == old(g.edges) && unchanged(impl)
      ensures r.Pass? ==>
                var e := Edge(node["source-sid"], node["target-sid"]);
                g.edges == old(g.edges) + {e} && impl.graph == g && impl.edge == Some(e) && Valid()
    {
      if "source-sid" !in node {
        return Fail(RuntimeError("no source-sid"));
      }
      var sourceSid := node["source-sid"];
      if "target-sid" !in node {
        return Fail(RuntimeError("no target-sid"));
      }
      var targetSid := node["target-sid"];
      var source := g.FindDevice(sourceSid);
      var target := g.FindDevice(targetSid);
      if source.None? || target.None? {
        return Fail(RuntimeError("device not found"));
      }
      r := AddToDeviceGraph(g, source.value, target.value);
    }
  }

  /** The Holder constructor: a holder without an implementation is refused. */
  method NewHolder(impl: HolderImpl?) returns (r: Result<Holder>)
    ensures impl == null <==> r.Err?
    ensures r.Err? ==> r.error == RuntimeError("impl is nullptr")
    ensures r.Ok? ==> fresh(r.value) && r.value.impl == impl
  {
    if impl == null {
      return Err(RuntimeError("impl is nullptr"));
    }
    var h := new Holder(impl);
    r := Ok(h);
  }

  /**
   * Adding the same (source, target) pair twice: the second insertion is
   * refused and leaves the graph as the first one left it.
   */
  method AddTwice(g: Devicegraph, source: Device, target: Device) returns (first: Outcome, second: Outcome)
    requires g.Valid()
    requires source.graph == g && target.graph == g
    requires source.sid in g.devices && target.sid in g.devices
    requires Edge(source.sid, target.sid) !in g.edges
    modifies g
    ensures first == Pass && second == Fail(RuntimeError("holder already exists"))
    ensures g.edges == old(g.edges) + {Edge(source.sid, target.sid)}
  {
    var impl1 := new HolderImpl();
    var h1 := new Holder(impl1);
    first := h1.Create(g, source, target);
    var impl2 := new HolderImpl();
    var h2 := new Holder(impl2);
    second := h2.Create(g, source, target);
  }
}

=== FILE: luks.dfy ===
/**
 * LUKS encrypted volumes: size arithmetic and validation, the name used to
 * refer to the volume, allocation of fresh device-mapper names, interactive
 * activation and the /etc/crypttab bookkeeping.
 */
module Luks {
  import opened Results
  import opened Strings
  import opened Crypttab
  import opened UsedFeatures

  const MiB: nat := 1024 * 1024

  /** Space taken by the LUKS header in front of the encrypted data. */
  const MetadataSize: nat := 2 * MiB

  const U64Limit: nat := 0x1_0000_0000_0000_0000

  /** unsigned long long, the type of every size. */
  type U64 = n: nat | n < U64Limit

  datatype MountByType = Device | Uuid | Label | Id | Path

  datatype ParentKind = BlkDevice | NotBlkDevice

  /** A parent device of the Luks in the device graph. */
  datatype Parent = Parent(kind: ParentKind, name: string, size: U64)

  /** The attributes of a Luks device that the modelled operations use. */
  datatype Luks = Luks(size: U64, uuid: string, dmTableName: string, mountBy: MountByType, cryptOptions: seq<string>)

  predicate HasSingleBlkDeviceParent(parents: seq<Parent>) {
    |parents| == 1 && parents[0].kind == BlkDevice
  }

  // ---------------------------------------------------------------- check

  /**
   * Validation of a Luks of the given size below the given parents, after the
   * inherited BlkDevice validation gave `inherited`: the Luks needs exactly one
   * parent, a BlkDevice, that holds the Luks together with its header.
   */
  function Check(inherited: Outcome, size: U64, parents: seq<Parent>): (r: Outcome)
    ensures inherited.Fail? ==> r == inherited
    ensures inherited.Pass? && !HasSingleBlkDeviceParent(parents) ==>
              r == Fail(Exception("Luks has no BlkDevice parent"))
    ensures inherited.Pass? && HasSingleBlkDeviceParent(parents) && r.Fail? ==>
              r == Fail(Exception("Luks bigger than parent BlkDevice"))
    ensures r.Pass? <==>
              inherited.Pass? && HasSingleBlkDeviceParent(parents) && size + MetadataSize <= parents[0].size
  {
    if inherited.Fail? then inherited
    else if !HasSingleBlkDeviceParent(parents) then Fail(Exception("Luks has no BlkDevice parent"))
    else if size + MetadataSize > parents[0].size then Fail(Exception("Luks bigger than parent BlkDevice"))
    else Pass
  }

  /** Check as written: the sum of the two sizes is an unsigned long long and wraps. */
  function CheckAsWritten(inherited: Outcome, size: U64, parents: seq<Parent>): (r: Outcome)
    ensures size + MetadataSize < U64Limit ==> r == Check(inherited, size, parents)
  {
    if inherited.Fail? then inherited
    else if !HasSingleBlkDeviceParent(parents) then Fail(Exception("Luks has no BlkDevice parent"))
    else if (size + MetadataSize) % U64Limit > parents[0].size then Fail(Exception("Luks bigger than parent BlkDevice"))
    else Pass
  }

  /** A Luks of almost 2^64 bytes on a 1 MiB partition passes the check as written. */
  lemma CheckAsWrittenAcceptsOversizedLuks()
    ensures var parents := [Parent(BlkDevice, "/dev/sda1", MiB)];
            && CheckAsWritten(Pass, U64Limit - MiB, parents) == Pass
            && Check(Pass, U64Limit - MiB, parents) == Fail(Exception("Luks bigger than parent BlkDevice"))
  {
    assert (U64Limit - MiB + MetadataSize) % U64Limit == MiB;
  }

  // ----------------------------------------------------- size arithmetic

  /** a - b for unsigned sizes, clamped at zero instead of wrapping. */
  function SaturatingSub(a: U64, b: nat): (r: U64)
    ensures r <= a
    ensures a >= b ==> r + b == a
    ensures a <= b ==> r == 0
  {
    if a > b then a - b else 0
  }

  /** The size of a Luks whose BlkDevice parent has the given size. */
  function CalculateRegion(parentSize: U64): (size: U64)
    ensures size <= parentSize
    ensures parentSize >= MetadataSize ==> size + MetadataSize == parentSize
    ensures parentSize < MetadataSize ==> size == 0
  {
    SaturatingSub(parentSize, MetadataSize)
  }

  /** The calculated size passes the check exactly when the parent can hold the header. */
  lemma CalculatedRegionPassesCheck(parent: Parent)
    requires parent.kind == BlkDevice
    ensures Check(Pass, CalculateRegion(parent.size), [parent]).Pass? <==> parent.size >= MetadataSize
  {
  }

  /** The calculated size is the largest size the check accepts for that parent. */
  lemma CalculatedRegionIsLargestValid(parent: Parent, size: U64)
    requires parent.kind == BlkDevice && parent.size >= MetadataSize
    ensures Check(Pass, size, [parent]).Pass? <==> size <= CalculateRegion(parent.size)
  {
  }

  datatype ResizeInfo = ResizeInfo(resizeOk: bool, minSize: U64, maxSize: U64)

  /** Moves both bounds of a resize range down by offset, clamped at zero. */
  function Shift(info: ResizeInfo, offset: nat): (r: ResizeInfo)
    ensures r.resizeOk == info.resizeOk
    ensures r.minSize <= info.minSize && r.maxSize <= info.maxSize
  {
    ResizeInfo(info.resizeOk, SaturatingSub(info.minSize, offset), SaturatingSub(info.maxSize, offset))
  }

  /**
   * The resize range of a Luks: the range inherited from BlkDevice, shifted
   * down by the header, so each bound is the size calculate_region gives
   * for a block device of that size.
   */
  function DetectResizeInfo(blkDeviceInfo: ResizeInfo): (r: ResizeInfo)
    ensures r.resizeOk == blkDeviceInfo.resizeOk
    ensures r.minSize == CalculateRegion(blkDeviceInfo.minSize)
    ensures r.maxSize == CalculateRegion(blkDeviceInfo.maxSize)
    ensures blkDeviceInfo.minSize <= blkDeviceInfo.maxSize ==> r.minSize <= r.maxSize
  {
    Shift(blkDeviceInfo, MetadataSize)
  }

  /** The features a Luks uses: those of an encryption device plus LUKS. */
  function LuksUsedFeatures(encryptionFeatures: bv64): (f: bv64)
    ensures Has(f, UF_LUKS)
    ensures f & !UF_LUKS == encryptionFeatures & !UF_LUKS
  {
    UF_LUKS | encryptionFeatures
  }

  // ------------------------------------------------------------ equality

  /** Two Luks are equal when they are equal as encryption devices and have the same UUID. */
  function Equal(encryptionEqual: (Luks, Luks) -> bool, lhs: Luks, rhs: Luks): bool {
    encryptionEqual(lhs, rhs) && lhs.uuid == rhs.uuid
  }

  ghost predicate IsEquivalence(rel: (Luks, Luks) -> bool) {
    && (forall a :: rel(a, a))
    && (forall a, b :: rel(a, b) ==> rel(b, a))
    && (forall a, b, c :: rel(a, b) && rel(b, c) ==> rel(a, c))
  }

  /** Refining an equivalence by the UUID keeps it an equivalence. */
  lemma EqualIsEquivalence(encryptionEqual: (Luks, Luks) -> bool)
    requires IsEquivalence(encryptionEqual)
    ensures IsEquivalence((a, b) => Equal(encryptionEqual, a, b))
  {
  }

  // ------------------------------------------------------------ mount-by

  /**
   * The name under which the Luks is referred to: "UUID=<uuid>" when mounting
   * by UUID and the UUID is known, otherwise the name an encryption device
   * gives for that mount-by type.
   */
  function GetMountByName(mountBy: MountByType, uuid: string, encryptionName: string): (r: string)
    ensures mountBy == Uuid && uuid != [] ==> r == "UUID=" + uuid && r[|"UUID="|..] == uuid
    ensures !(mountBy == Uuid && uuid != []) ==> r == encryptionName
  {
    var ret := if mountBy == Uuid && uuid != [] then "UUID=" + uuid else "";
    if ret == [] then encryptionName else ret
  }

  // --------------------------------------------------- cr-auto-N names

  function CrAutoName(n: nat): string {
    "cr-auto-" + NatToString(n)
  }

  /** Different counter values give different names. */
  lemma CrAutoNameInjective(m: nat, n: nat)
    requires CrAutoName(m) == CrAutoName(n)
    ensures m == n
  {
    CommonPrefixCancels("cr-auto-", NatToString(m), NatToString(n));
    NatToStringInjective(m, n);
  }

  /**
   * Advancing the counter from `from` to `to` allocated the first name
   * cr-auto-N with N >= from that is not an existing device-mapper name.
   */
  ghost predicate FreshAllocation(from: nat, to: nat, dmNames: set<string>) {
    && from < to
    && CrAutoName(to - 1) !in dmNames
    && forall k | from <= k < to - 1 :: CrAutoName(k) in dmNames
  }

  /** The process-wide counter behind the cr-auto-N names. */
  class CrAutoNamer {
    var nr: nat

    constructor ()
      ensures nr == 1
    {
      nr := 1;
    }

    /** A name cr-auto-N that is not among dmNames; the counter moves past N. */
    method NextFreeCrAutoName(dmNames: set<string>) returns (name: string)
      modifies this
      ensures FreshAllocation(old(nr), nr, dmNames)
      ensures name == CrAutoName(nr - 1)
    {
      ghost var from := nr;
      while CrAutoName(nr) in dmNames
        invariant from <= nr
        invariant forall k | from <= k < nr :: CrAutoName(k) in dmNames
        decreases |dmNames| - (nr - from)
      {
        TakenRunBound(dmNames, from, nr + 1);
        nr := nr + 1;
      }
      name := CrAutoName(nr);
      nr := nr + 1;
    }
  }

  /**
   * A run of taken names is no longer than the list of taken names, so the
   * search for a free name ends.
   */
  lemma {:induction false} TakenRunBound(dmNames: set<string>, from: nat, to: nat)
    requires from <= to
    requires forall k | from <= k < to :: CrAutoName(k) in dmNames
    ensures to - from <= |dmNames|
  {
    if from < to {
      var first := CrAutoName(from);
      forall k | from + 1 <= k < to
        ensures CrAutoName(k) in dmNames - {first}
      {
        if CrAutoName(k) == first {
          CrAutoNameInjective(k, from);
        }
      }
      TakenRunBound(dmNames - {first}, from + 1, to);
    }
  }

  /** Two allocations from one counter never give the same name. */
  method AllocateTwice(namer: CrAutoNamer, dmNames1: set<string>, dmNames2: set<string>)
    returns (first: string, second: string)
    modifies namer
    ensures first != second
  {
    first := namer.NextFreeCrAutoName(dmNames1);
    ghost var n1 := namer.nr - 1;
    second := namer.NextFreeCrAutoName(dmNames2);
    if first == second {
      CrAutoNameInjective(n1, namer.nr - 1);
    }
  }

  // ----------------------------------------------------------- activation

  /** The answer of the activation callback: cancel, or a password to try. */
  datatype Answer = Cancel | Password(password: string)

  /** One round: the callback's answer and, if a password was given, cryptsetup's exit code. */
  datatype Attempt = Attempt(answer: Answer, exitCode: int)

  /** The callback invocation for one attempt. */
  datatype Prompt = Prompt(uuid: string, attempt: nat)

  /** One "cryptsetup luksOpen" run: the device, the dm name and the key fed on stdin. */
  datatype LuksOpen = LuksOpen(device: string, dmName: string, key: string)

  /** The round ends the retry loop: a cancel, or any exit code but 2 (wrong password). */
  predicate Stops(a: Attempt) {
    a.answer.Cancel? || a.exitCode != 2
  }

  predicate EventuallyStops(attempts: seq<Attempt>) {
    exists i | 0 <= i < |attempts| :: Stops(attempts[i])
  }

  /** The rounds before i were all wrong passwords. */
  predicate WrongPasswordsBefore(attempts: seq<Attempt>, i: nat)
    requires i <= |attempts|
  {
    forall j | 0 <= j < i :: attempts[j].answer.Password? && attempts[j].exitCode == 2
  }

  /** The index of the round that ends the retry loop. */
  function FirstStop(attempts: seq<Attempt>): (k: nat)
    requires EventuallyStops(attempts)
    ensures k < |attempts| && Stops(attempts[k])
    ensures forall j | 0 <= j < k :: !Stops(attempts[j])
  {
    if Stops(attempts[0]) then 0
    else
      assert EventuallyStops(attempts[1..]) by {
        var i :| 0 <= i < |attempts| && Stops(attempts[i]);
        assert attempts[1..][i - 1] == attempts[i];
      }
      1 + FirstStop(attempts[1..])
  }

  /** The first round that ends the loop is the one FirstStop names. */
  lemma FirstStopIs(attempts: seq<Attempt>, i: nat)
    requires i < |attempts| && Stops(attempts[i])
    requires forall j | 0 <= j < i :: !Stops(attempts[j])
    ensures EventuallyStops(attempts) && FirstStop(attempts) == i
  {
  }

  /** What activating one Luks returns for the given rounds. */
  function ActivationResult(attempts: seq<Attempt>): (r: Result<bool>)
    requires EventuallyStops(attempts)
    ensures r.Err? ==> r.error == Exception("activate Luks failed")
  {
    var last := attempts[FirstStop(attempts)];
    if last.answer.Cancel? then Ok(false)
    else if last.exitCode == 0 then Ok(true)
    else Err(Exception("activate Luks failed"))
  }

  /**
   * Activation returns false exactly when the user cancels after wrong
   * passwords only, true exactly when a password is accepted after wrong
   * passwords only, and raises exactly when cryptsetup fails otherwise.
   */
  lemma ActivationResultCharacterised(attempts: seq<Attempt>)
    requires EventuallyStops(attempts)
    ensures ActivationResult(attempts) == Ok(false) <==>
              exists i | 0 <= i < |attempts| :: attempts[i].answer.Cancel? && WrongPasswordsBefore(attempts, i)
    ensures ActivationResult(attempts) == Ok(true) <==>
              exists i | 0 <= i < |attempts| ::
                attempts[i].answer.Password? && attempts[i].exitCode == 0 && WrongPasswordsBefore(attempts, i)
    ensures ActivationResult(attempts).Err? <==>
              exists i | 0 <= i < |attempts| ::
                attempts[i].answer.Password? && attempts[i].exitCode !in {0, 2} && WrongPasswordsBefore(attempts, i)
  {
    var k := FirstStop(attempts);
    assert WrongPasswordsBefore(attempts, k);
    forall i | 0 <= i < |attempts| && Stops(attempts[i]) && WrongPasswordsBefore(attempts, i)
      ensures i == k
    {
    }
  }

  /**
   * The interactive activation of the Luks on device `name`: the callback is
   * asked for attempt 1, 2, ... until it cancels or cryptsetup stops
   * reporting a wrong password. The dm name is allocated once, before the
   * first luksOpen, and reused for every retry.
   */
  method ActivateLuks(namer: CrAutoNamer, dmNames: set<string>, name: string, uuid: string, attempts: seq<Attempt>)
    returns (r: Result<bool>, prompts: seq<Prompt>, opens: seq<LuksOpen>)
    requires EventuallyStops(attempts)
    modifies namer
    ensures r == ActivationResult(attempts)
    ensures |prompts| == FirstStop(attempts) + 1
    ensures forall j | 0 <= j < |prompts| :: prompts[j] == Prompt(uuid, j + 1)
    ensures |opens| == if r == Ok(false) then FirstStop(attempts) else FirstStop(attempts) + 1
    ensures opens == [] <==> attempts[0].answer.Cancel?
    ensures opens == [] ==> namer.nr == old(namer.nr)
    ensures opens != [] ==> FreshAllocation(old(namer.nr), namer.nr, dmNames)
    ensures forall j | 0 <= j < |opens| ::
              attempts[j].answer.Password? && opens[j] == LuksOpen(name, CrAutoName(namer.nr - 1), attempts[j].answer.password)
  {
    ghost var k := FirstStop(attempts);
    var attempt: nat := 1;
    var dmName := "";
    prompts, opens := [], [];
    while true
      invariant 1 <= attempt <= k + 1
      invariant |prompts| == attempt - 1 && forall j | 0 <= j < |prompts| :: prompts[j] == Prompt(uuid, j + 1)
      invariant |opens| == attempt - 1
      invariant attempt == 1 ==> namer.nr == old(namer.nr)
      invariant attempt > 1 ==> FreshAllocation(old(namer.nr), namer.nr, dmNames) && dmName == CrAutoName(namer.nr - 1)
      invariant forall j | 0 <= j < |opens| ::
                  attempts[j] == Attempt(Password(opens[j].key), 2) && opens[j] == LuksOpen(name, dmName, opens[j].key)
      decreases k + 1 - attempt
    {
      var round := attempts[attempt - 1];
      prompts := prompts + [Prompt(uuid, attempt)];
      if round.answer.Cancel? {
        FirstStopIs(attempts, attempt - 1);
        return Ok(false), prompts, opens;
      }
      if attempt == 1 {
        dmName := namer.NextFreeCrAutoName(dmNames);
      }
      opens := opens + [LuksOpen(name, dmName, round.answer.password)];
      if round.exitCode == 2 {
        attempt := attempt + 1;
        continue;
      }
      FirstStopIs(attempts, attempt - 1);
      if round.exitCode != 0 {
        return Err(Exception("activate Luks failed")), prompts, opens;
      }
      return Ok(true), prompts, opens;
    }
  }

  /** One blkid entry, with the device number udevadm reports for it. */
  datatype BlkidEntry = BlkidEntry(name: string, isLuks: bool, luksUuid: string, majorMinor: nat)

  /** A LUKS device that no device-mapper table uses yet. */
  predicate Inactive(e: BlkidEntry, dmUsed: set<nat>) {
    e.isLuks && e.majorMinor !in dmUsed
  }

  predicate RoundsStop(blkid: seq<BlkidEntry>, dmUsed: set<nat>, attempts: seq<seq<Attempt>>) {
    && |attempts| == |blkid|
    && forall i | 0 <= i < |blkid| && Inactive(blkid[i], dmUsed) :: EventuallyStops(attempts[i])
  }

  lemma RoundsStopPrefix(blkid: seq<BlkidEntry>, dmUsed: set<nat>, attempts: seq<seq<Attempt>>, n: nat)
    requires RoundsStop(blkid, dmUsed, attempts) && n <= |blkid|
    ensures RoundsStop(blkid[..n], dmUsed, attempts[..n])
  {
    forall i | 0 <= i < n && Inactive(blkid[..n][i], dmUsed)
      ensures EventuallyStops(attempts[..n][i])
    {
      assert blkid[..n][i] == blkid[i] && attempts[..n][i] == attempts[i];
    }
  }

  /** What activating every inactive LUKS device in blkid order returns. */
  function ActivateLuksesResult(blkid: seq<BlkidEntry>, dmUsed: set<nat>, attempts: seq<seq<Attempt>>): Result<bool>
    requires RoundsStop(blkid, dmUsed, attempts)
    decreases |blkid|
  {
    if blkid == [] then Ok(false)
    else
      var n := |blkid| - 1;
      RoundsStopPrefix(blkid, dmUsed, attempts, n);
      var before := ActivateLuksesResult(blkid[..n], dmUsed, attempts[..n]);
      if before.Err? || !Inactive(blkid[n], dmUsed) then before
      else match ActivationResult(attempts[n])
        case Err(e) => Err(e)
        case Ok(b) => Ok(before.value || b)
  }

  /**
   * Activating all devices raises exactly when one inactive LUKS device's
   * activation raises; otherwise it returns true exactly when at least one
   * activation returned true. Other devices play no part.
   */
  lemma {:induction false} ActivateLuksesCharacterised(blkid: seq<BlkidEntry>, dmUsed: set<nat>, attempts: seq<seq<Attempt>>)
    requires RoundsStop(blkid, dmUsed, attempts)
    ensures ActivateLuksesResult(blkid, dmUsed, attempts).Err? <==>
              exists i | 0 <= i < |blkid| :: Inactive(blkid[i], dmUsed) && ActivationResult(attempts[i]).Err?
    ensures ActivateLuksesResult(blkid, dmUsed, attempts) == Ok(true) <==>
              && (forall i | 0 <= i < |blkid| && Inactive(blkid[i], dmUsed) :: ActivationResult(attempts[i]).Ok?)
              && (exists i | 0 <= i < |blkid| :: Inactive(blkid[i], dmUsed) && ActivationResult(attempts[i]) == Ok(true))
    decreases |blkid|
  {
    if blkid != [] {
      var n := |blkid| - 1;
      RoundsStopPrefix(blkid, dmUsed, attempts, n);
      ActivateLuksesCharacterised(blkid[..n], dmUsed, attempts[..n]);
      forall i | 0 <= i < n
        ensures blkid[..n][i] == blkid[i] && attempts[..n][i] == attempts[i]
      {
      }
    }
  }

  /** A failure in a prefix of the devices is the result for all of them. */
  lemma {:induction false} ActivateLuksesErrPersists(blkid: seq<BlkidEntry>, dmUsed: set<nat>, attempts: seq<seq<Attempt>>, n: nat)
    requires RoundsStop(blkid, dmUsed, attempts) && n <= |blkid|
    requires RoundsStop(blkid[..n], dmUsed, attempts[..n])
    requires ActivateLuksesResult(blkid[..n], dmUsed, attempts[..n]).Err?
    ensures ActivateLuksesResult(blkid, dmUsed, attempts) == ActivateLuksesResult(blkid[..n], dmUsed, attempts[..n])
    decreases |blkid|
  {
    if n < |blkid| {
      var m := |blkid| - 1;
      RoundsStopPrefix(blkid, dmUsed, attempts, m);
      assert blkid[..m][..n] == blkid[..n] && attempts[..m][..n] == attempts[..n];
      ActivateLuksesErrPersists(blkid[..m], dmUsed, attempts[..m], n);
    } else {
      assert blkid[..n] == blkid && attempts[..n] == attempts;
    }
  }

  /** ActivateLuksesResult over one more device. */
  lemma ActivateLuksesResultStep(blkid: seq<BlkidEntry>, dmUsed: set<nat>, attempts: seq<seq<Attempt>>, i: nat)
    requires RoundsStop(blkid, dmUsed, attempts) && i < |blkid|
    ensures RoundsStop(blkid[..i], dmUsed, attempts[..i]) && RoundsStop(blkid[..i + 1], dmUsed, attempts[..i + 1])
    ensures Inactive(blkid[i], dmUsed) ==> EventuallyStops(attempts[i])
    ensures var before := ActivateLuksesResult(blkid[..i], dmUsed, attempts[..i]);
            ActivateLuksesResult(blkid[..i + 1], dmUsed, attempts[..i + 1]) ==
              if before.Err? || !Inactive(blkid[i], dmUsed) then before
              else match ActivationResult(attempts[i])
                case Err(e) => Err(e)
                case Ok(b) => Ok(before.value || b)
  {
    RoundsStopPrefix(blkid, dmUsed, attempts, i + 1);
    RoundsStopPrefix(blkid, dmUsed, attempts, i);
    assert blkid[..i + 1][..i] == blkid[..i] && attempts[..i + 1][..i] == attempts[..i];
  }

  function Repeat(x: nat, n: nat): seq<nat> {
    seq(n, _ => x)
  }

  /**
   * The luksOpen runs so far, each with the blkid index of its device (dev)
   * and the counter value of its dm name (num): runs open inactive LUKS devices
   * among the first i under names below the counter nr that were free, and
   * runs for different devices have different counter values.
   */
  ghost predicate Tracked(opens: seq<LuksOpen>, dev: seq<nat>, num: seq<nat>, blkid: seq<BlkidEntry>, dmUsed: set<nat>,
                          dmNames: set<string>, i: nat, nr: nat)
  {
    && |dev| == |opens| && |num| == |opens| && i <= |blkid|
    && (forall j | 0 <= j < |opens| ::
          && dev[j] < i && Inactive(blkid[dev[j]], dmUsed) && opens[j].device == blkid[dev[j]].name
          && num[j] < nr && opens[j].dmName == CrAutoName(num[j]) && opens[j].dmName !in dmNames)
    && (forall j1, j2 | 0 <= j1 < |opens| && 0 <= j2 < |opens| && dev[j1] != dev[j2] :: num[j1] != num[j2])
  }

  /** The runs for one more device, all under one freshly allocated name, keep Tracked. */
  lemma TrackedExtend(opens: seq<LuksOpen>, dev: seq<nat>, num: seq<nat>, blkid: seq<BlkidEntry>, dmUsed: set<nat>,
                      dmNames: set<string>, i: nat, nr: nat, run: seq<LuksOpen>, nr': nat)
    requires Tracked(opens, dev, num, blkid, dmUsed, dmNames, i, nr)
    requires i < |blkid| && Inactive(blkid[i], dmUsed) && nr <= nr'
    requires run != [] ==> nr < nr' && CrAutoName(nr' - 1) !in dmNames
    requires forall j | 0 <= j < |run| :: run[j].device == blkid[i].name && run[j].dmName == CrAutoName(nr' - 1)
    ensures var last: nat := if run == [] then 0 else nr' - 1;
            Tracked(opens + run, dev + Repeat(i, |run|), num + Repeat(last, |run|), blkid, dmUsed, dmNames, i + 1, nr')
  {
  }

  /** Tracked still holds with more devices examined and the counter further on. */
  lemma TrackedGrow(opens: seq<LuksOpen>, dev: seq<nat>, num: seq<nat>, blkid: seq<BlkidEntry>, dmUsed: set<nat>,
                    dmNames: set<string>, i: nat, nr: nat, i': nat, nr': nat)
    requires Tracked(opens, dev, num, blkid, dmUsed, dmNames, i, nr)
    requires i <= i' <= |blkid| && nr <= nr'
    ensures Tracked(opens, dev, num, blkid, dmUsed, dmNames, i', nr')
  {
  }

  /**
   * Tracked runs use free names, open inactive LUKS devices only, and runs
   * for different devices use different names.
   */
  lemma TrackedDistinct(opens: seq<LuksOpen>, dev: seq<nat>, num: seq<nat>, blkid: seq<BlkidEntry>, dmUsed: set<nat>,
                        dmNames: set<string>, i: nat, nr: nat)
    requires Tracked(opens, dev, num, blkid, dmUsed, dmNames, i, nr)
    requires forall d1, d2 | 0 <= d1 < d2 < |blkid| :: blkid[d1].name != blkid[d2].name
    ensures forall j | 0 <= j < |opens| :: opens[j].dmName !in dmNames
    ensures forall j | 0 <= j < |opens| ::
              exists d | 0 <= d < |blkid| :: Inactive(blkid[d], dmUsed) && opens[j].device == blkid[d].name
    ensures forall j1, j2 | 0 <= j1 < |opens| && 0 <= j2 < |opens| && opens[j1].device != opens[j2].device ::
              opens[j1].dmName != opens[j2].dmName
  {
    forall j1, j2 | 0 <= j1 < |opens| && 0 <= j2 < |opens| && opens[j1].dmName == opens[j2].dmName
      ensures opens[j1].device == opens[j2].device
    {
      CrAutoNameInjective(num[j1], num[j2]);
    }
    assert forall j | 0 <= j < |opens| :: dev[j] < |blkid| && opens[j].device == blkid[dev[j]].name;
  }

  /** One step of ActivateLukses: activates the inactive LUKS device blkid[i] and records its runs. */
  method ActivateInactive(namer: CrAutoNamer, dmNames: set<string>, blkid: seq<BlkidEntry>, dmUsed: set<nat>,
                          attempts: seq<seq<Attempt>>, i: nat, opens: seq<LuksOpen>, ghost dev: seq<nat>, ghost num: seq<nat>)
    returns (activated: Result<bool>, opens': seq<LuksOpen>, ghost dev': seq<nat>, ghost num': seq<nat>)
    requires RoundsStop(blkid, dmUsed, attempts) && i < |blkid| && Inactive(blkid[i], dmUsed)
    requires Tracked(opens, dev, num, blkid, dmUsed, dmNames, i, namer.nr)
    modifies namer
    ensures activated == ActivationResult(attempts[i])
    ensures old(namer.nr) <= namer.nr
    ensures Tracked(opens', dev', num', blkid, dmUsed, dmNames, i + 1, namer.nr)
  {
    ghost var nrBefore := namer.nr;
    var prompts, run;
    activated, prompts, run := ActivateLuks(namer, dmNames, blkid[i].name, blkid[i].luksUuid, attempts[i]);
    TrackedExtend(opens, dev, num, blkid, dmUsed, dmNames, i, nrBefore, run, namer.nr);
    opens' := opens + run;
    dev' := dev + Repeat(i, |run|);
    num' := num + Repeat(if run == [] then 0 else namer.nr - 1, |run|);
  }

  /**
   * Activates every LUKS device of blkid that no device-mapper table uses,
   * then lets udev settle if one was activated. Besides the result, the
   * luksOpen runs are returned, with the blkid index and counter value behind
   * each (dev, num); Tracked and TrackedDistinct say what they satisfy.
   */
  method ActivateLukses(namer: CrAutoNamer, dmNames: set<string>, blkid: seq<BlkidEntry>, dmUsed: set<nat>,
                        attempts: seq<seq<Attempt>>)
    returns (r: Result<bool>, opens: seq<LuksOpen>, settled: bool, ghost dev: seq<nat>, ghost num: seq<nat>)
    requires RoundsStop(blkid, dmUsed, attempts)
    modifies namer
    ensures r == ActivateLuksesResult(blkid, dmUsed, attempts)
    ensures settled <==> r == Ok(true)
    ensures old(namer.nr) <= namer.nr
    ensures Tracked(opens, dev, num, blkid, dmUsed, dmNames, |blkid|, namer.nr)
  {
    var ret := false;
    opens, settled, dev, num := [], false, [], [];
    var i := 0;
    while i < |blkid|
      invariant 0 <= i <= |blkid|
      invariant RoundsStop(blkid[..i], dmUsed, attempts[..i])
      invariant ActivateLuksesResult(blkid[..i], dmUsed, attempts[..i]) == Ok(ret)
      invariant old(namer.nr) <= namer.nr
      invariant Tracked(opens, dev, num, blkid, dmUsed, dmNames, i, namer.nr)
    {
      ActivateLuksesResultStep(blkid, dmUsed, attempts, i);
      var e := blkid[i];
      if e.isLuks && e.majorMinor !in dmUsed {
        var activated;
        activated, opens, dev, num := ActivateInactive(namer, dmNames, blkid, dmUsed, attempts, i, opens, dev, num);
        if activated.Err? {
          ActivateLuksesErrPersists(blkid, dmUsed, attempts, i + 1);
          TrackedGrow(opens, dev, num, blkid, dmUsed, dmNames, i + 1, namer.nr, |blkid|, namer.nr);
          return activated, opens, false, dev, num;
        }
        if activated.value {
          ret := true;
        }
      } else {
        TrackedGrow(opens, dev, num, blkid, dmUsed, dmNames, i, namer.nr, i + 1, namer.nr);
      }
      i := i + 1;
    }
    assert blkid[..i] == blkid && attempts[..i] == attempts;
    r := Ok(ret);
    if ret {
      settled := true;
    }
  }

  // --------------------------------------------------------- deactivation

  /** One dmsetup info entry: the dm name and its subsystem. */
  datatype DmsetupInfoEntry = DmsetupInfoEntry(name: string, subsystem: string)

  /** The names of the CRYPT devices, in dmsetup order. */
  function CryptDevices(info: seq<DmsetupInfoEntry>): (names: seq<string>)
    ensures |names| <= |info|
    ensures forall n | n in names :: exists i | 0 <= i < |info| :: info[i].subsystem == "CRYPT" && info[i].name == n
    ensures forall i | 0 <= i < |info| && info[i].subsystem == "CRYPT" :: info[i].name in names
  {
    if info == [] then []
    else
      var n := |info| - 1;
      var before := CryptDevices(info[..n]);
      assert forall i | 0 <= i < n :: info[..n][i] == info[i];
      if info[n].subsystem == "CRYPT" then before + [info[n].name] else before
  }

  /**
   * Closes every CRYPT device; exitCodes[i] is what closing info[i] returns.
   * Succeeds exactly when every close does.
   */
  method DeactivateLukses(info: seq<DmsetupInfoEntry>, exitCodes: seq<int>) returns (ok: bool, closed: seq<string>)
    requires |exitCodes| == |info|
    ensures closed == CryptDevices(info)
    ensures ok <==> forall i | 0 <= i < |info| && info[i].subsystem == "CRYPT" :: exitCodes[i] == 0
  {
    ok := true;
    closed := [];
    for i := 0 to |info|
      invariant closed == CryptDevices(info[..i])
      invariant ok <==> forall j | 0 <= j < i && info[j].subsystem == "CRYPT" :: exitCodes[j] == 0
    {
      assert info[..i + 1][..i] == info[..i];
      if info[i].subsystem != "CRYPT" {
        continue;
      }
      closed := closed + [info[i].name];
      if exitCodes[i] != 0 {
        ok := false;
      }
    }
    assert info[..|info|] == info;
  }

  // ------------------------------------------------------------ crypttab

  /** The crypttab entry of a Luks: its dm name, its mount-by name and its options. */
  function CrypttabEntryOf(luks: Luks, encryptionName: string): CrypttabEntry {
    CrypttabEntry(luks.dmTableName, GetMountByName(luks.mountBy, luks.uuid, encryptionName), luks.cryptOptions)
  }

  /** Appends exactly one entry for the Luks and writes the file. */
  method DoAddToEtcCrypttab(crypttab: EtcCrypttab, luks: Luks, encryptionName: string)
    modifies crypttab
    ensures crypttab.entries == old(crypttab.entries) + [CrypttabEntryOf(luks, encryptionName)]
    ensures var added := crypttab.entries[|old(crypttab.entries)|];
            && added.cryptDevice == luks.dmTableName && added.cryptOpts == luks.cryptOptions
            && added.blockDevice == GetMountByName(luks.mountBy, luks.uuid, encryptionName)
    ensures crypttab.written == crypttab.entries
  {
    var entry := CrypttabEntryOf(luks, encryptionName);
    crypttab.Add(entry);
    crypttab.Write();
  }

  /**
   * Points the entry for the old block device at the Luks' current mount-by
   * name and writes the file; without such an entry nothing happens.
   */
  method DoRenameInEtcCrypttab(crypttab: EtcCrypttab, luks: Luks, encryptionName: string, oldBlkDeviceName: string)
    modifies crypttab
    ensures var newName := GetMountByName(luks.mountBy, luks.uuid, encryptionName);
            crypttab.entries == RenameEntry(old(crypttab.entries), oldBlkDeviceName, newName)
    ensures FindBlockDevice(old(crypttab.entries), oldBlkDeviceName).None? ==> unchanged(crypttab)
    ensures FindBlockDevice(old(crypttab.entries), oldBlkDeviceName).Some? ==> crypttab.written == crypttab.entries
  {
    var found := FindBlockDevice(crypttab.entries, oldBlkDeviceName);
    if found.Some? {
      crypttab.SetBlockDevice(found.value, GetMountByName(luks.mountBy, luks.uuid, encryptionName));
      crypttab.Write();
    }
  }

  /** Removes the entry for the Luks' block device and writes the file; without one nothing happens. */
  method DoRemoveFromEtcCrypttab(crypttab: EtcCrypttab, blkDeviceName: string)
    modifies crypttab
    ensures crypttab.entries == RemoveEntry(old(crypttab.entries), blkDeviceName)
    ensures FindBlockDevice(old(crypttab.entries), blkDeviceName).None? ==> unchanged(crypttab)
    ensures FindBlockDevice(old(crypttab.entries), blkDeviceName).Some? ==> crypttab.written == crypttab.entries
  {
    var found := FindBlockDevice(crypttab.entries, blkDeviceName);
    if found.Some? {
      crypttab.Remove(found.value);
      crypttab.Write();
    }
  }
}

=== FILE: results.dfy ===
/** Failure-carrying values standing in for the exceptions the library throws. */
module Results {

  datatype Option<+T> = None | Some(value: T)

  /** The three kinds of exception raised by the modelled code. */
  datatype Error =
    | RuntimeError(what: string)                 // std::runtime_error
    | Exception(what: string)                    // storage::Exception
    | BtrfsSubvolumeNotFoundByPath(path: string) // storage::BtrfsSubvolumeNotFoundByPath

  /** A value, or the exception thrown instead of returning one. */
  datatype Result<+T> = Ok(value: T) | Err(error: Error)

  /** Normal return of a void function, or the exception it threw. */
  datatype Outcome = Pass | Fail(error: Error)
}

=== FILE: strings.dfy ===
/** Decimal rendering of numbers (std::to_string) and prefix tests on strings. */
module Strings {

  function DigitChar(d: nat): (c: char)
    requires d < 10
    ensures '0' <= c <= '9'
  {
    (('0' as int) + d) as char
  }

  /** The decimal digits of n, most significant first, without leading zeros. */
  function NatToString(n: nat): (s: string)
    ensures 1 <= |s|
    ensures n < 10 <==> |s| == 1
    ensures forall i | 0 <= i < |s| :: '0' <= s[i] <= '9'
  {
    if n < 10 then [DigitChar(n)] else NatToString(n / 10) + [DigitChar(n % 10)]
  }

  /** std::to_string of a signed integer. */
  function IntToString(i: int): (s: string)
    ensures 1 <= |s|
  {
    if i < 0 then "-" + NatToString(-i) else NatToString(i)
  }

  /** Different numbers are rendered as different strings. */
  lemma {:induction false} NatToStringInjective(m: nat, n: nat)
    requires NatToString(m) == NatToString(n)
    ensures m == n
  {
    var sm, sn := NatToString(m), NatToString(n);
    if m < 10 || n < 10 {
      assert |sm| == 1 && |sn| == 1;
      assert DigitChar(m) == sm[0] == sn[0] == DigitChar(n);
    } else {
      assert sm == NatToString(m / 10) + [DigitChar(m % 10)];
      assert sn == NatToString(n / 10) + [DigitChar(n % 10)];
      assert DigitChar(m % 10) == sm[|sm| - 1] == sn[|sn| - 1] == DigitChar(n % 10);
      assert NatToString(m / 10) == sm[..|sm| - 1] == sn[..|sn| - 1] == NatToString(n / 10);
      NatToStringInjective(m / 10, n / 10);
    }
  }

  predicate StartsWith(s: string, prefix: string) {
    |prefix| <= |s| && s[..|prefix|] == prefix
  }

  /** Equal strings with a common prefix have equal remainders. */
  lemma CommonPrefixCancels(p: string, a: string, b: string)
    requires p + a == p + b
    ensures a == b
  {
    assert a == (p + a)[|p|..];
    assert b == (p + b)[|p|..];
  }
}
